=== FILE: README.md ===
# CelesteTAS hitbox overlay and Studio settings, modelled in Dafny

This project models two parts of CelesteTAS.

The first part is the optimized hitbox overlay, `HitboxOptimized`. It holds seven hooks on the game's debug-render and render
methods. The hooks cull entities far outside the camera, draw the puffer's explosion radius and fuse lines, draw holdable
colliders and the feather collider, recolour fireballs, silence sound sources and draw a regenerating seeker's push radius.
The module's `Load`/`Unload` pair is modelled separately, as a registry of hook registrations.

The second part is the menu and Studio code around the overlay:

- `Menu`: dialog keys, slider and toggle option lists, and the Enabled switch that shows or hides every option.
- `Settings`: the recent-files list, the theme, and the snippets file. Shortcuts are written as `Application+Control+...+Key` and read back.
- `HotkeyDialog`: held-modifier tracking, refusal of modifier-only presses, conflict detection, the confirm step and the clear chord.
- `SnippetDialog`: an editing session on a copy of the snippet list, committed on OK and dropped on Cancel.

Everything is a pure function over immutable values. A hook's work is a trace of `Event`s:

- draws;
- calls to the original method, with or without a colour;
- collider renders that record which collider was active while drawing.

The world of entities is a map that each handler hands back, so "the collider is swapped, drawn and restored" becomes
"the world comes back unchanged and the render saw the swapped collider".

These inputs become parameters:

- the `ShowHitboxes` setting;
- the camera and the player;
- the game's `Dialog.Clean` lookup (`clean`);
- the naming of Eto keys (`KeyNaming`);
- the platform's `CommonModifier` and `Keys.Escape`;
- the user's answers to message boxes (`confirmed`).

Modules: `Optional`, `Text` (split/join, line endings, whitespace, integer formatting), `Keys` and `Studio` (Eto's
`Keys` as a modifier set plus a key code; the Studio's `Hotkey` and `Snippet`), `HitboxOptimized`, `HitboxHooks`,
`Menu`, `Settings`, `HotkeyDialog`, `SnippetDialog`.

Two details of the overlay are easy to misread in the code. In `ModDebugRender` the culled path returns before calling
`orig`, so a culled entity draws nothing at all, not even its original debug render. `SeekerOnDebugRender` is not gated
by `ShowHitboxes`: it never reads that setting.

## Model

| member | source | states |
|---|---|---|
| HitboxOptimized.ModDebugRender | CelesteTAS-EverestInterop/EverestInterop/Hitboxes/HitboxOptimized.cs:46-80 | With hitboxes hidden only `orig` runs. A culled entity draws nothing and `orig` is skipped. A visible puffer draws its radius-32 circle and two fuse lines, 1 unit above its bottom (4 when the player ducks), at half opacity when not collidable, then calls `orig`. Any other entity only calls `orig` |
| HitboxOptimized.ModDebugRenderOrigOnce | CelesteTAS-EverestInterop/EverestInterop/Hitboxes/HitboxOptimized.cs:46-80 | `orig` runs exactly once per call unless the entity is culled, and then never |
| HitboxOptimized.CullBounds | CelesteTAS-EverestInterop/EverestInterop/Hitboxes/HitboxOptimized.cs:53-56 | The cull rectangle is twice the viewport in each dimension. Its centre is within a pixel and a half of the view's centre despite the C# truncations. For a viewport at least 2 pixels wide and high it strictly contains the view on every side |
| HitboxOptimized.VisibleNeverCulled | CelesteTAS-EverestInterop/EverestInterop/Hitboxes/HitboxOptimized.cs:52-60 | An entity overlapping the camera's own view is never culled, for a viewport at least 2 pixels wide and high |
| HitboxOptimized.AddHoldableColliderHitbox | CelesteTAS-EverestInterop/EverestInterop/Hitboxes/HitboxOptimized.cs:82-123 | `orig` runs first and exactly once. Nothing else happens when hitboxes are hidden, outside a level, with no holdables, or when every holdable is a held glider. Otherwise, after `orig`, come exactly the renders of the holdable colliders in loop order. A collider is rendered when it has a collider and its first holdable is not a held glider. Each render is its collider, in its first holdable's colour, drawn while it is the owner's active collider. The world comes back unchanged |
| HitboxOptimized.HoldableColliderPasses | CelesteTAS-EverestInterop/EverestInterop/Hitboxes/HitboxOptimized.cs:102-122 | The loop's renders: one per rendered holdable collider, in order. The `i`-th collider's render sits at the position counting the rendered colliders before it, and there are no other events |
| HitboxOptimized.HoldableColliderPass | CelesteTAS-EverestInterop/EverestInterop/Hitboxes/HitboxOptimized.cs:102-122 | A holdable collider without a collider, or whose first holdable is a held glider, draws nothing. Otherwise it draws once with its collider swapped in, and the owner's collider is restored |
| HitboxOptimized.HoldableColliderColor | CelesteTAS-EverestInterop/EverestInterop/Hitboxes/HitboxOptimized.cs:115-120 | The colour is blue for a glider and green otherwise. For a non-collidable owner it is at a quarter opacity, because the half factor is applied twice |
| HitboxOptimized.NearestIndex | CelesteTAS-EverestInterop/EverestInterop/Hitboxes/HitboxOptimized.cs:109-110 | Returns the first holdable at the least squared distance, the nearest-first choice the sort's comparator aims at |
| HitboxOptimized.NearestPicks | CelesteTAS-EverestInterop/EverestInterop/Hitboxes/HitboxOptimized.cs:102-110 | For each holdable collider, picks a holdable no farther from the collider's entity than any other, and the picks are valid input for `AddHoldableColliderHitbox` |
| HitboxOptimized.SwapRender | CelesteTAS-EverestInterop/EverestInterop/Hitboxes/HitboxOptimized.cs:118-121 | When the render returns normally, rendering an alternate collider leaves the world as it was. The render sees the alternate collider as the active one |
| HitboxOptimized.PlayerColliderColor | CelesteTAS-EverestInterop/EverestInterop/Hitboxes/HitboxOptimized.cs:125-135 | The spliced delegate keeps the hue. It halves the opacity when the owner is not collidable and otherwise returns the colour unchanged |
| HitboxOptimized.AddFeatherHitbox | CelesteTAS-EverestInterop/EverestInterop/Hitboxes/HitboxOptimized.cs:137-146 | `orig` runs first. The feather collider is drawn in hot pink exactly when hitboxes are shown, there is a feather collider and a player, and the player is in the star-fly state. It is drawn at half opacity for a non-collidable owner, with the collider restored afterwards |
| HitboxOptimized.CircleOnRender | CelesteTAS-EverestInterop/EverestInterop/Hitboxes/HitboxOptimized.cs:148-159 | `orig` runs once. The colour becomes goldenrod exactly for a non-ice fireball's circle while hitboxes are shown, and is passed through otherwise |
| HitboxOptimized.SoundSourceDebugRender | CelesteTAS-EverestInterop/EverestInterop/Hitboxes/HitboxOptimized.cs:161-165 | The original runs once when hitboxes are hidden and not at all when they are shown |
| HitboxOptimized.SeekerOnDebugRender | CelesteTAS-EverestInterop/EverestInterop/Hitboxes/HitboxOptimized.cs:167-176 | `orig` runs first. A regenerating seeker with a push radius also has that circle drawn in the entity colour, with its collider restored; nothing reads `ShowHitboxes` |
| HitboxHooks.Load | CelesteTAS-EverestInterop/EverestInterop/Hitboxes/HitboxOptimized.cs:24-33 | `Load` appends the seven overlay hooks, in order, after the hooks already registered |
| HitboxHooks.Unsubscribe | CelesteTAS-EverestInterop/EverestInterop/Hitboxes/HitboxOptimized.cs:37-43 | Unhooking a handler that is not registered changes nothing. Otherwise its most recent registration is removed and the others keep their order |
| HitboxHooks.LastIndexOf | CelesteTAS-EverestInterop/EverestInterop/Hitboxes/HitboxOptimized.cs:37-43 | The registration `-=` removes is an occurrence of the hook with none after it |
| HitboxHooks.Unload | CelesteTAS-EverestInterop/EverestInterop/Hitboxes/HitboxOptimized.cs:35-44 | `Unload` on a registry without the overlay's hooks changes nothing |
| HitboxHooks.LoadUnload | CelesteTAS-EverestInterop/EverestInterop/Hitboxes/HitboxOptimized.cs:24-44 | `Unload` after `Load` restores the registry exactly, whatever hooks were registered before `Load` |
| HitboxHooks.UnloadKeepsLater | CelesteTAS-EverestInterop/EverestInterop/Hitboxes/HitboxOptimized.cs:24-44 | Hooks other code registers after `Load` survive `Unload`: it removes exactly the seven overlay registrations and keeps everything else in order |
| HitboxHooks.UnloadTwice | CelesteTAS-EverestInterop/EverestInterop/Hitboxes/HitboxOptimized.cs:35-44 | A second `Unload` after a load and an unload leaves the registry unchanged |
| Menu.DialogKey | CelesteTAS-EverestInterop/EverestInterop/Menu.cs:18 | The key is `TAS_` followed by the input with every space replaced by `_` and every other character kept, so it has no spaces |
| Menu.CreateSliderOptions | CelesteTAS-EverestInterop/EverestInterop/Menu.cs:86-108 | Default (no value) comes first. Then come all values from `start` to `end` inclusive, counting up or down, each with its formatted label, so there are two more entries than the distance between the bounds. This is the corrected loop |
| Menu.DefaultLabelsDistinct | CelesteTAS-EverestInterop/EverestInterop/Menu.cs:87-89 | With the default `ToString` formatter, distinct values get distinct labels |
| Menu.AscendingNeverExits | CelesteTAS-EverestInterop/EverestInterop/Menu.cs:93-97 | As written on 32-bit `int`, the ascending loop with `end == int.MaxValue` never exits |
| Menu.DescendingNeverExits | CelesteTAS-EverestInterop/EverestInterop/Menu.cs:99-102 | As written on 32-bit `int`, the descending loop with `end == int.MinValue` never exits |
| Menu.AscendingAsWrittenBelowMax | CelesteTAS-EverestInterop/EverestInterop/Menu.cs:93-97 | Below `int.MaxValue` the loop as written adds exactly `start..end` and stops |
| Menu.DescendingAsWrittenAboveMin | CelesteTAS-EverestInterop/EverestInterop/Menu.cs:99-102 | Above `int.MinValue` the descending loop as written adds exactly `start` down to `end` and stops |
| Menu.CreateDefaultHideOptions | CelesteTAS-EverestInterop/EverestInterop/Menu.cs:110-115 | `false` is labelled Default and `true` is labelled Hide |
| Menu.CreateSimplifyOptions | CelesteTAS-EverestInterop/EverestInterop/Menu.cs:117-122 | `false` is labelled Default and `true` is labelled Simplify |
| Menu.CreateMenu | CelesteTAS-EverestInterop/EverestInterop/Menu.cs:68-79 | The Enabled switch comes first, then every option in order, each visible exactly when the mod is enabled |
| Menu.SetEnabled | CelesteTAS-EverestInterop/EverestInterop/Menu.cs:69-74 | Toggling Enabled stores the value and makes every option's visibility follow it. Items and ids are kept |
| Settings.AddRecentFile | Studio/CelesteStudio/Settings.cs:74-85 | The added path is first. At most `MaxRecentFiles` (20) entries are kept, each the new path or an old entry, and the theme is unchanged |
| Settings.AddRecentFileOrder | Studio/CelesteStudio/Settings.cs:74-85 | On a list without duplicates, the result is the path followed by the other files in their old order, cut to 20, with no duplicates |
| Settings.RemoveFirstNoDuplicates | Studio/CelesteStudio/Settings.cs:76 | On a list without duplicates, `Remove` drops every occurrence of the path |
| Settings.ClearRecentFiles | Studio/CelesteStudio/Settings.cs:86-91 | The list becomes empty and the theme is unchanged |
| Settings.ThemeOf | Studio/CelesteStudio/Settings.cs:41-45 | The light type gives the light theme and the dark type gives the dark theme |
| Settings.ShortcutName | Studio/CelesteStudio/Settings.cs:139-150 | `Save` stores a shortcut under its parts joined by `+`; under a valid key naming, splitting the name on `+` gives those parts back |
| Settings.ShortcutPartsOrder | Studio/CelesteStudio/Settings.cs:139-150 | A stored name lists each modifier of the shortcut once, in the order Application, Control, Alt, Shift, and then the key |
| Settings.ShortcutRoundTrip | Studio/CelesteStudio/Settings.cs:106-108 | `ParseShortcut`, Load's reading of a name (split on `+`, parse each part, OR the parts), gives back the shortcut `ShortcutName` saved |
| Settings.ShortcutNameInjective | Studio/CelesteStudio/Settings.cs:139-150 | Distinct shortcuts are stored under distinct names |
| Settings.AssignContents | Studio/CelesteStudio/Settings.cs:151 | Writing pairs into the table: every written key is present and holds its last value, and every entry comes from some pair |
| Settings.SaveSnippets | Studio/CelesteStudio/Settings.cs:135-153 | Every snippet's name is in the table. A snippet that no later one overwrites keeps its text, and every entry is some snippet's name and text |
| Settings.SameShortcutCollapses | Studio/CelesteStudio/Settings.cs:137-152 | Two snippets with the same shortcut keep only the later one's text in the file |
| Settings.ReadEntries | Studio/CelesteStudio/Settings.cs:101-111 | One snippet per string entry, in the order the keys come, with its name parsed; other values are skipped. The `i`-th string entry's snippet sits at the position counting the string entries before it |
| Settings.LoadSnippets | Studio/CelesteStudio/Settings.cs:98-112 | An empty table keeps the current list. A non-empty table replaces it by one snippet per string entry, in key order |
| Settings.SaveThenLoad | Studio/CelesteStudio/Settings.cs:98-152 | For a non-empty list, loading what was saved gives only saved snippets. It includes every snippet that no later snippet with the same shortcut overwrites. An empty list is not restored (see `EmptySaveKeepsCurrent`) |
| Settings.EmptySaveKeepsCurrent | Studio/CelesteStudio/Settings.cs:98 | Saving an empty list writes an empty table, and loading it keeps the current list, so deleting every snippet does not survive a save and a load |
| HotkeyDialog.KeyDownModifiers | Studio/CelesteStudio/Dialog/HotkeyDialog.cs:51-58 | A pressed modifier key counts as held along with the event's modifiers |
| HotkeyDialog.KeyUpModifiers | Studio/CelesteStudio/Dialog/HotkeyDialog.cs:38-47 | A released modifier key no longer counts as held, even if the event still reports it |
| HotkeyDialog.ConflictingBindings | Studio/CelesteStudio/Dialog/HotkeyDialog.cs:89 | The conflicting key bindings are exactly the entries bound to the new hotkey |
| HotkeyDialog.ConflictingSnippets | Studio/CelesteStudio/Dialog/HotkeyDialog.cs:90 | The conflicting snippets are exactly the snippets using the new hotkey |
| HotkeyDialog.OnHotkeyDown | Studio/CelesteStudio/Dialog/HotkeyDialog.cs:82-125 | Re-pressing the current hotkey closes with it. The dialog stays open exactly when a different hotkey conflicts and the user declines. Otherwise it closes with the new hotkey, or with `Hotkey.None` for `CommonModifier+Escape` |
| HotkeyDialog.Handle | Studio/CelesteStudio/Dialog/HotkeyDialog.cs:31-77 | A modifier key alone never reaches the decision and only updates the label. A key release only updates the label. Any other key goes to the decision with its key data: the dialog closes with the decided hotkey or stays open with the held modifiers shown. Text of exactly one UTF-16 code unit goes to the decision as a character hotkey; other text is ignored. Clear closes with `Hotkey.None` |
| HotkeyDialog.ModifiersAloneKeepOpen | Studio/CelesteStudio/Dialog/HotkeyDialog.cs:60-66 | Any run of modifier presses and releases leaves the dialog open and returns the current hotkey |
| HotkeyDialog.RunResult | Studio/CelesteStudio/Dialog/HotkeyDialog.cs:36-125 | `Run` feeds the inputs to `Handle` until the dialog closes. The dialog returns the current hotkey, `Hotkey.None`, or the hotkey of a non-modifier key or single character that was typed |
| HotkeyDialog.SnippetConflictLineShape | Studio/CelesteStudio/Dialog/HotkeyDialog.cs:104-109 | A conflicting snippet is listed by the first line of its text, with `...` exactly when there are more lines. It is prefixed by its shortcut only when that is not blank |
| Text.LinesOfNormalized | Studio/CelesteStudio/Dialog/HotkeyDialog.cs:105 | After normalising line endings, the first piece is the text's first line. There is more than one piece exactly when the text has a line break |
| Text.ReplaceLineEndings | Studio/CelesteStudio/Dialog/SnippetDialog.cs:114-120 | After normalisation the only line break left is `\n`, and one is present exactly when the input had a line break. All other characters are kept in order, and a text without line breaks comes back unchanged |
| Text.ReplaceLineEndingsUnits | Studio/CelesteStudio/Dialog/SnippetDialog.cs:114-120 | A single newline character, and CR LF, each become one `\n`; any other character is kept |
| Text.ReplaceLineEndingsAppend | Studio/CelesteStudio/Dialog/SnippetDialog.cs:114-120 | Normalising `a + b` is normalising `a` and `b` separately, unless `a` ends in CR. With the unit cases this puts each `\n` exactly where its newline sequence was |
| Text.Utf16Length | Studio/CelesteStudio/Dialog/HotkeyDialog.cs:70-71 | `String.Length` counts UTF-16 code units. It is 1 exactly for a single character of the Basic Multilingual Plane |
| SnippetDialog.Swap | Studio/CelesteStudio/Dialog/SnippetDialog.cs:123-133 | The two entries are exchanged, the others stay, and the list is a permutation of the old one |
| SnippetDialog.PressHotkey | Studio/CelesteStudio/Dialog/SnippetDialog.cs:85-109 | A modifier key alone changes nothing, and neither does a hotkey some snippet (this one included) already uses unless the user confirms. Otherwise this entry's hotkey becomes the pressed key data, and nothing else changes |
| SnippetDialog.Apply | Studio/CelesteStudio/Dialog/SnippetDialog.cs:28-143 | Add appends a new snippet, enabled, without a hotkey and with empty texts. Up and down swap the entry with its neighbour. A declined delete changes nothing, and a confirmed one removes exactly that entry and keeps the others in order. The enabled box stores its value. The shortcut and insert boxes store their text with line endings normalised to `\n`. A hotkey press is `PressHotkey`. Every edit but Add and Delete leaves the other entries as they were |
| SnippetDialog.Edited | Studio/CelesteStudio/Dialog/SnippetDialog.cs:17 | Editing changes only the working copy, which becomes the edits applied in order, never the list the dialog was opened with |
| SnippetDialog.Close | Studio/CelesteStudio/Dialog/SnippetDialog.cs:178-186 | `Show` stores the working list in the settings on OK and keeps the settings' list on Cancel |
| SnippetDialog.CancelDiscardsEdits | Studio/CelesteStudio/Dialog/SnippetDialog.cs:178-186 | After any edits, Cancel leaves the settings as they were, and OK stores exactly the edited list. This holds by construction, because edits only touch the working copy |
| SnippetDialog.MoveUpThenDown | Studio/CelesteStudio/Dialog/SnippetDialog.cs:123-133 | Moving an entry up and then down restores the list |
| SnippetDialog.ReorderingKeepsSnippets | Studio/CelesteStudio/Dialog/SnippetDialog.cs:123-133 | Any run of up and down clicks keeps the same snippets |
| SnippetDialog.EntryCount | Studio/CelesteStudio/Dialog/SnippetDialog.cs:28-143 | The entry count changes only by Add (+1) and confirmed Delete (-1) |
| SnippetDialog.CautiousEditNoClash | Studio/CelesteStudio/Dialog/SnippetDialog.cs:94-105 | Without a confirmed override, no edit makes two snippets share a hotkey |
| SnippetDialog.CautiousSessionNoClash | Studio/CelesteStudio/Dialog/SnippetDialog.cs:94-105 | A session whose warnings were all heeded ends without shared hotkeys if it began without them |

## Left out

- The hooking machinery itself (MonoMod `On.`/`IL.` events and detours). Hooks are a list of registrations; only the order, `+=`/`-=` and Load/Unload are modelled.
- `PlayerColliderOnDebugRender`'s IL search. Whether `get_HotPink` is found is not modelled; the spliced delegate is `PlayerColliderColor`.
- The reflection getters (`FireBallIceMode`, `SeekerPushRadius`, `HoldableColliderCollider`). Their values are inputs.
- HitboxOptimized.AddHoldableColliderHitbox: which holdable the `List.Sort` puts first is a caller-supplied index (`pick`). The comparator never answers "less", so the order depends on the sort algorithm. In .NET's introspective sort, two or three holdables are ordered by swaps that do put the nearest first. For four to sixteen, insertion sort never moves an element, so `First()` is the tracker's first holdable. `NearestIndex` and `NearestPicks` give the intended nearest-first choice.
- XNA colour arithmetic. `Color * float` rounds to bytes; colours are kept as a base colour and a real opacity factor.
- Float geometry. Positions are reals and the viewport integers; `width * 2` is not wrapped to 32 bits.
- HitboxOptimized.SwapRender: restoring the collider is modelled for a render that returns normally. The source has no `try`/`finally` around the swap, so if `Render` throws, the alternate collider stays on the entity; exceptions are not modelled.
- Drawing. `Draw.Circle`, `Draw.Line` and `Collider.Render` are events, not pixels; the Monocle collider setter's entity back-reference is not modelled.
- Settings persistence. The TOML (de)serialisation of the other settings, file and directory I/O, exceptions and their logging, the console dump of the first snippet, and the `Changed`/`ThemeChanged`/`FontChanged` events are left out.
- The default snippet list and the other settings' defaults.
- Settings.ShortcutRoundTrip: key names come from a `KeyNaming` parameter. It is assumed to read its own names back, to contain no `+` and not to clash with a modifier name. `Enum.TryParse`'s numeric and comma-separated forms and its case handling are not modelled.
- Settings.SaveThenLoad: stated for a non-empty list only; an empty list is not restored, because `Load` ignores an empty table (`EmptySaveKeepsCurrent`). The order in which the TOML library returns table keys is a parameter (`entries`). So only membership is stated, not list order.
- The Eto UI: layout, fonts, focus, the unfocuser button, tooltips and button texts.
- `ToShortcutString` and the label text built from it.
- Message-box texts. The answers are the `confirmed` inputs.
- `HotkeyDialog.Show`'s defaulting of the key bindings from `MenuEntry` and of the snippets from the settings.
- A menu entry's `GetName()` line in the conflict warning.
- Menu.CreateMenu: the option items are ids. The sub-menu contents, `HitboxTweak`/`InfoHud` descriptions and the key-config button's action are not modelled.
- `Dialog.Clean`. It is the `clean` parameter.
- Keys, Hotkey and Snippet. The Eto `Keys` enumeration, the Studio's `Hotkey` and its `Snippet` are not part of this model's sources. Their shapes are inferred from how the modelled code uses them. `Settings.cs` uses an older snippet record (shortcut keys and text) than the dialogs (enabled flag, hotkey, typed shortcut, insert text), and both are modelled. The values of a `new Snippet()` (enabled, `Hotkey.None`, empty texts) are likewise inferred.
- The shortcut text box's console logging in the snippet dialog.
- Text.IntToString: the default slider formatter `i.ToString()` uses the current culture. The model formats under the invariant culture (an ASCII `-` and the digits `0`-`9`), so a culture with a different negative sign or native digits is not modelled.

## Findings

| source | as written | input that shows it | evidently intended | confidence | as-written member | corrected member |
|---|---|---|---|---|---|---|
| CelesteTAS-EverestInterop/EverestInterop/Menu.cs:93-102 | `current++` / `current--` on a 32-bit `int` while `current <= end` / `current >= end` | `CreateSliderOptions(int.MaxValue - 1, int.MaxValue)` or `CreateSliderOptions(int.MinValue + 1, int.MinValue)`: three entries are intended, but the counter wraps around and the condition never fails | list every value from `start` to `end` once and stop | not executed | Menu.AscendingNeverExits, Menu.DescendingNeverExits | Menu.CreateSliderOptions |

=== FILE: hitbox_hooks.dfy ===
/** The hook registrations of the hitbox overlay. Hooking a method appends a
    (target, handler) pair to the registry; unhooking removes the most
    recently added equal pair and does nothing if there is none. */
module HitboxHooks {

  /** The hooked methods. */
  datatype Target =
    | EntityDebugRender
    | EntityListDebugRender
    | PlayerColliderDebugRenderIL
    | PlayerColliderDebugRender
    | CircleRender
    | SoundSourceDebugRender
    | SeekerDebugRender
    | OtherTarget(name: string)

  /** The handlers attached to them. */
  datatype Handler =
    | ModDebugRender
    | AddHoldableColliderHitbox
    | PlayerColliderOnDebugRender
    | AddFeatherHitbox
    | CircleOnRender
    | SoundSourceDebugRenderHandler
    | SeekerOnDebugRender
    | OtherHandler(name: string)

  datatype Hook = Hook(target: Target, handler: Handler)

  /** The registered hooks, oldest first. */
  type Registry = seq<Hook>

  /** The seven hooks of the overlay, in registration order. */
  const OverlayHooks: seq<Hook> := [
    Hook(EntityDebugRender, ModDebugRender),
    Hook(EntityListDebugRender, AddHoldableColliderHitbox),
    Hook(PlayerColliderDebugRenderIL, PlayerColliderOnDebugRender),
    Hook(PlayerColliderDebugRender, AddFeatherHitbox),
    Hook(CircleRender, CircleOnRender),
    Hook(SoundSourceDebugRender, SoundSourceDebugRenderHandler),
    Hook(SeekerDebugRender, SeekerOnDebugRender)
  ]

  predicate Distinct(hs: seq<Hook>) {
    forall i, j :: 0 <= i < j < |hs| ==> hs[i] != hs[j]
  }

  /** `target += handler` */
  function Subscribe(r: Registry, h: Hook): Registry {
    r + [h]
  }

  /** The position of the most recent registration of `h`. */
  function LastIndexOf(r: Registry, h: Hook): (i: nat)
    requires h in r
    ensures i < |r| && r[i] == h
    ensures h !in r[i + 1..]
    decreases |r|
  {
    var n := |r| - 1;
    if r[n] == h then n
    else
      assert r == r[..n] + [r[n]];
      LastIndexOf(r[..n], h)
  }

  /** `target -= handler`: removes the last registration of `h`, keeping the
      order of the others, and does nothing when `h` is not registered. */
  function Unsubscribe(r: Registry, h: Hook): (r': Registry)
    ensures h !in r ==> r' == r
    ensures h in r ==> var i := LastIndexOf(r, h); r' == r[..i] + r[i + 1..]
    decreases |r|
  {
    if |r| == 0 then r
    else
      var n := |r| - 1;
      var last := r[n];
      assert r == r[..n] + [last];
      if last == h then r[..n]
      else
        var rest := Unsubscribe(r[..n], h);
        UnsubscribeEarlier(r, h, rest);
        rest + [last]
  }

  /** The step of `Unsubscribe` past a last registration that is not `h`. */
  lemma UnsubscribeEarlier(r: Registry, h: Hook, rest: Registry)
    requires |r| > 0 && r[|r| - 1] != h
    requires var p := r[..|r| - 1];
      h in p ==> var i := LastIndexOf(p, h); rest == p[..i] + p[i + 1..]
    ensures h in r ==> var i := LastIndexOf(r, h); rest + [r[|r| - 1]] == r[..i] + r[i + 1..]
  {
    var n := |r| - 1;
    assert r == r[..n] + [r[n]];
    if h in r {
      assert h in r[..n];
      var i := LastIndexOf(r[..n], h);
      assert LastIndexOf(r, h) == i;
      assert r[i + 1..] == r[..n][i + 1..] + [r[n]];
    }
  }

  function SubscribeAll(r: Registry, hs: seq<Hook>): Registry
    decreases |hs|
  {
    if |hs| == 0 then r else SubscribeAll(Subscribe(r, hs[0]), hs[1..])
  }

  function UnsubscribeAll(r: Registry, hs: seq<Hook>): Registry
    decreases |hs|
  {
    if |hs| == 0 then r else UnsubscribeAll(Unsubscribe(r, hs[0]), hs[1..])
  }

  /** `Load`: registers the seven overlay hooks after whatever is there. */
  function Load(r: Registry): (r': Registry)
    ensures r' == r + OverlayHooks
  {
    SubscribeAllAppends(r, OverlayHooks);
    SubscribeAll(r, OverlayHooks)
  }

  /** `Unload`: unregisters the seven overlay hooks in the same order. */
  function Unload(r: Registry): (r': Registry)
    ensures (forall h :: h in OverlayHooks ==> h !in r) ==> r' == r
  {
    UnsubscribeAbsent(r, OverlayHooks);
    UnsubscribeAll(r, OverlayHooks)
  }

  lemma {:induction false} SubscribeAllAppends(r: Registry, hs: seq<Hook>)
    ensures SubscribeAll(r, hs) == r + hs
    decreases |hs|
  {
    if |hs| > 0 {
      SubscribeAllAppends(r + [hs[0]], hs[1..]);
      assert r + [hs[0]] + hs[1..] == r + hs;
    }
  }

  lemma {:induction false} UnsubscribeAbsent(r: Registry, hs: seq<Hook>)
    ensures (forall h :: h in hs ==> h !in r) ==> UnsubscribeAll(r, hs) == r
    decreases |hs|
  {
    if |hs| > 0 && forall h :: h in hs ==> h !in r {
      assert hs[0] in hs;
      UnsubscribeAbsent(r, hs[1..]);
    }
  }

  /** Removing the last registration of `h` when it sits before a suffix
      without `h`. */
  lemma UnsubscribeBeforeSuffix(a: Registry, h: Hook, b: Registry)
    requires h !in b
    ensures Unsubscribe(a + [h] + b, h) == a + b
  {
    var r := a + [h] + b;
    assert r[|a|] == h && r[|a| + 1..] == b;
    LastIndexUnique(r, h, |a|);
    assert r[..|a|] == a;
  }

  /** The last registration is the one with none of `h` after it. */
  lemma LastIndexUnique(r: Registry, h: Hook, i: nat)
    requires i < |r| && r[i] == h && h !in r[i + 1..]
    ensures LastIndexOf(r, h) == i
  {
    var j := LastIndexOf(r, h);
    forall k | i < k < |r| ensures r[k] != h {
      assert r[k] == r[i + 1..][k - i - 1];
    }
    forall k | j < k < |r| ensures r[k] != h {
      assert r[k] == r[j + 1..][k - j - 1];
    }
  }

  lemma {:induction false} UnsubscribeAllAppended(r: Registry, hs: seq<Hook>)
    requires Distinct(hs)
    ensures UnsubscribeAll(r + hs, hs) == r
    decreases |hs|
  {
    if |hs| > 0 {
      assert hs[0] !in hs[1..];
      assert r + hs == r + [hs[0]] + hs[1..];
      UnsubscribeBeforeSuffix(r, hs[0], hs[1..]);
      UnsubscribeAllAppended(r, hs[1..]);
    }
  }

  /** Unsubscribing distinct hooks registered, in order, before a suffix
      that holds none of them removes exactly those registrations. */
  lemma {:induction false} UnsubscribeAllBefore(r: Registry, hs: seq<Hook>, b: Registry)
    requires Distinct(hs)
    requires forall h :: h in hs ==> h !in b
    ensures UnsubscribeAll(r + hs + b, hs) == r + b
    decreases |hs|
  {
    if |hs| > 0 {
      assert hs[0] in hs;
      assert hs[0] !in hs[1..] + b;
      assert r + hs + b == r + [hs[0]] + (hs[1..] + b);
      UnsubscribeBeforeSuffix(r, hs[0], hs[1..] + b);
      assert r + (hs[1..] + b) == r + hs[1..] + b;
      UnsubscribeAllBefore(r, hs[1..], b);
    }
  }

  /** Hooks other mods register after `Load` survive `Unload`, which removes
      exactly the seven overlay registrations. */
  lemma UnloadKeepsLater(r: Registry, b: Registry)
    requires forall h :: h in OverlayHooks ==> h !in b
    ensures Unload(Load(r) + b) == r + b
  {
    OverlayHooksDistinct();
    UnsubscribeAllBefore(r, OverlayHooks, b);
  }

  /** `Unload` after `Load` leaves the registry as it was, whatever hooks
      were registered before it. */
  lemma LoadUnload(r: Registry)
    ensures Unload(Load(r)) == r
  {
    OverlayHooksDistinct();
    UnsubscribeAllAppended(r, OverlayHooks);
  }

  /** The position of an overlay target in `OverlayHooks`. */
  function TargetRank(t: Target): int {
    match t
    case EntityDebugRender => 0
    case EntityListDebugRender => 1
    case PlayerColliderDebugRenderIL => 2
    case PlayerColliderDebugRender => 3
    case CircleRender => 4
    case SoundSourceDebugRender => 5
    case SeekerDebugRender => 6
    case OtherTarget(_) => -1
  }

  /** The overlay hooks are pairwise different, so each `-=` in `Unload`
      finds its own registration. */
  lemma OverlayHooksDistinct()
    ensures Distinct(OverlayHooks)
  {
    assert forall i :: 0 <= i < |OverlayHooks| ==> TargetRank(OverlayHooks[i].target) == i;
  }

  /** Unloading twice is the same as unloading once after a load: teardown
      can be repeated. */
  lemma UnloadTwice(r: Registry)
    requires forall h :: h in OverlayHooks ==> h !in r
    ensures Unload(Unload(Load(r))) == r
  {
    LoadUnload(r);
  }
}

=== FILE: hitbox_optimized.dfy ===
/** The hitbox overlay's hook handlers. Each handler is a pure function of a
    snapshot of what it reads (the `ShowHitboxes` setting, the entity, the
    camera, the player) and returns the trace of what it does: the shapes it
    draws, when it calls the original method (`orig`), and the entities'
    colliders afterwards. */
module HitboxOptimized {
  import opened Optional

  /** A world position; the game's float vectors as reals. */
  datatype Vec = Vec(x: real, y: real)

  /** The hues the overlay draws with. `EntityColor` is the user's configured
      hitbox colour; `Rgb` is a colour built from its channels. */
  datatype BaseColor = EntityColor | Goldenrod | HotPink | Rgb(r: int, g: int, b: int)

  /** `new Color(104, 142, 255)`, the holdable-collider colour near a glider. */
  const GliderBlue: BaseColor := Rgb(104, 142, 255)

  /** `new Color(89, 177, 147)`, the holdable-collider colour otherwise. */
  const HoldableGreen: BaseColor := Rgb(89, 177, 147)

  /** A colour with an opacity factor: XNA's `color * f` scales every channel
      by `f`, kept here as the product of the factors applied. */
  datatype Color = Color(base: BaseColor, factor: real)

  function Opaque(b: BaseColor): Color {
    Color(b, 1.0)
  }

  /** `color * f` */
  function Times(c: Color, f: real): Color {
    Color(c.base, c.factor * f)
  }

  /** The `Collidable ? 1 : 0.5` factor used throughout the overlay. */
  function CollidableFactor(collidable: bool): real {
    if collidable then 1.0 else 0.5
  }

  /** An entity's collision shape, identified by `id`; only `Grid` matters to
      the overlay's rules. */
  datatype Collider = Grid(id: nat) | Shape(id: nat)

  /** The entity types the handlers test for. */
  datatype EntityKind = Puffer | FinalBossBeam | FireBall(iceMode: bool) | Seeker | Glider | OtherKind

  /** What the handlers read of an entity: its type, current collider,
      position, bounds (`Left`, `Right`, `Top`, `Bottom`) and `Collidable`. */
  datatype Entity = Entity(
    kind: EntityKind,
    collider: Option<Collider>,
    position: Vec,
    left: real, right: real, top: real, bottom: real,
    collidable: bool)

  type EntityId = nat

  /** The entities a handler may change, by identity. */
  type World = map<EntityId, Entity>

  /** The camera: its world `Left`/`Top` and its viewport size in pixels. */
  datatype Camera = Camera(left: real, top: real, width: int, height: int)

  /** The tracked player: `Ducking` and the state machine's state. */
  datatype Player = Player(ducking: bool, state: int)

  /** The game's `Player.StStarFly` state (feather flight). */
  const StStarFly: int := 19

  /** One observable step of a handler. `RenderCollider` records the collider
      rendered and the owning entity's collider at that moment. */
  datatype Event =
    | DrawCircle(center: Vec, radius: real, color: Color, segments: nat)
    | DrawLine(from: Vec, to: Vec, color: Color)
    | RenderCollider(collider: Collider, color: Color, active: Option<Collider>)
    | CallOrig
    | CallOrigWith(color: Color)

  /** Events together with the entities afterwards. */
  datatype Outcome = Outcome(events: seq<Event>, world: World)

  /** Number of calls to `orig` in a trace. */
  function OrigCalls(events: seq<Event>): nat {
    if |events| == 0 then 0
    else (if events[0].CallOrig? || events[0].CallOrigWith? then 1 else 0) + OrigCalls(events[1..])
  }

  // ---------------------------------------------------------------- culling

  /** C#'s `(int) x` for a float: truncation toward zero. */
  function Truncate(x: real): (n: int)
    ensures x >= 0.0 ==> n as real <= x < n as real + 1.0
    ensures x < 0.0 ==> n as real - 1.0 < x <= n as real
  {
    if x >= 0.0 then x.Floor else -((-x).Floor)
  }

  /** C#'s `n / 2` on `int`: truncation toward zero. */
  function Half(n: int): (h: int)
    ensures n >= 0 ==> 0 <= n - 2 * h <= 1
    ensures n < 0 ==> -1 <= n - 2 * h <= 0
  {
    if n >= 0 then n / 2 else -((-n) / 2)
  }

  /** XNA `Rectangle(x, y, width, height)`. */
  datatype Rect = Rect(x: int, y: int, width: int, height: int) {
    function Left(): int { x }
    function Right(): int { x + width }
    function Top(): int { y }
    function Bottom(): int { y + height }
  }

  /** The rectangle entities are culled against: the camera view grown to
      twice its size around (nearly) the same centre. The C# truncations
      move the centre by less than a pixel and a half; for a viewport at
      least two pixels wide and high the rectangle strictly contains the
      view on every side. */
  function CullBounds(cam: Camera): (b: Rect)
    ensures b.width == 2 * cam.width && b.height == 2 * cam.height
    ensures cam.width >= 2 ==>
      b.Left() as real < cam.left && b.Right() as real > cam.left + cam.width as real
    ensures cam.height >= 2 ==>
      b.Top() as real < cam.top && b.Bottom() as real > cam.top + cam.height as real
    ensures cam.width >= 0 ==>
      -1.0 < (b.x as real + b.width as real / 2.0) - (cam.left + cam.width as real / 2.0) < 1.5
    ensures cam.height >= 0 ==>
      -1.0 < (b.y as real + b.height as real / 2.0) - (cam.top + cam.height as real / 2.0) < 1.5
  {
    Rect(Truncate(cam.left) - Half(cam.width), Truncate(cam.top) - Half(cam.height),
         cam.width * 2, cam.height * 2)
  }

  /** Entities never culled: those with a `Grid` collider and `FinalBossBeam`. */
  predicate CullExempt(e: Entity) {
    (e.collider.Some? && e.collider.value.Grid?) || e.kind.FinalBossBeam?
  }

  predicate Outside(e: Entity, b: Rect) {
    e.right < b.Left() as real || e.left > b.Right() as real
    || e.top > b.Bottom() as real || e.bottom < b.Top() as real
  }

  predicate Culled(e: Entity, cam: Camera) {
    !CullExempt(e) && Outside(e, CullBounds(cam))
  }

  /** Culling never hides an entity that overlaps the camera's own view (for a
      viewport at least two pixels wide and high). */
  lemma VisibleNeverCulled(e: Entity, cam: Camera)
    requires cam.width >= 2 && cam.height >= 2
    requires e.right >= cam.left && e.left <= cam.left + cam.width as real
    requires e.bottom >= cam.top && e.top <= cam.top + cam.height as real
    ensures !Culled(e, cam)
  {
  }

  // ----------------------------------------------------------- the puffer

  /** The player's `Ducking`, false when there is no player. */
  function Ducking(player: Option<Player>): bool {
    player.Some? && player.value.ducking
  }

  /** The puffer overlay: a 32-segment circle of radius 32 at the puffer's
      position and two horizontal fuse lines, from 32 to 6 left of the bottom
      centre and from 6 to 32 right of it, one unit above the bottom (four when
      the player ducks), all in the entity colour at half opacity for a
      non-collidable puffer. */
  predicate IsPufferOverlay(d: seq<Event>, e: Entity, ducking: bool) {
    var y := e.bottom - (if ducking then 4.0 else 1.0);
    var cx := (e.left + e.right) / 2.0;
    var c := Color(EntityColor, if e.collidable then 1.0 else 0.5);
    d == [DrawCircle(e.position, 32.0, c, 32),
          DrawLine(Vec(cx - 32.0, y), Vec(cx - 6.0, y), c),
          DrawLine(Vec(cx + 6.0, y), Vec(cx + 32.0, y), c)]
  }

  function PufferOverlay(e: Entity, ducking: bool): seq<Event> {
    var bottomCenter := Vec((e.left + e.right) / 2.0, e.bottom - 1.0);
    var anchor := if ducking then Vec(bottomCenter.x, bottomCenter.y - 3.0) else bottomCenter;
    var color := if !e.collidable then Times(Opaque(EntityColor), 0.5) else Opaque(EntityColor);
    [DrawCircle(e.position, 32.0, color, 32),
     DrawLine(Vec(anchor.x - 32.0, anchor.y), Vec(anchor.x - 6.0, anchor.y), color),
     DrawLine(Vec(anchor.x + 6.0, anchor.y), Vec(anchor.x + 32.0, anchor.y), color)]
  }

  /** The `Entity.DebugRender` hook. */
  function ModDebugRender(show: bool, e: Entity, cam: Camera, player: Option<Player>): (r: seq<Event>)
    ensures !show ==> r == [CallOrig]
    ensures show && Culled(e, cam) ==> r == []
    ensures show && !Culled(e, cam) && !e.kind.Puffer? ==> r == [CallOrig]
    ensures show && !Culled(e, cam) && e.kind.Puffer? ==>
      |r| == 4 && IsPufferOverlay(r[..3], e, Ducking(player)) && r[3] == CallOrig
  {
    if !show then [CallOrig]
    else if Culled(e, cam) then []
    else if e.kind.Puffer? then PufferOverlay(e, Ducking(player)) + [CallOrig]
    else [CallOrig]
  }

  /** `orig` runs exactly once unless the entity is culled, and then not at all. */
  lemma ModDebugRenderOrigOnce(show: bool, e: Entity, cam: Camera, player: Option<Player>)
    ensures OrigCalls(ModDebugRender(show, e, cam, player)) == if show && Culled(e, cam) then 0 else 1
  {
    var r := ModDebugRender(show, e, cam, player);
    if show && !Culled(e, cam) && e.kind.Puffer? {
      assert r[3..] == [CallOrig];
      assert OrigCalls(r[3..]) == 1 by { assert r[3..][1..] == []; }
      assert r[2..][1..] == r[3..];
      assert r[1..][1..] == r[2..];
      assert OrigCalls(r[2..]) == 1;
      assert OrigCalls(r[1..]) == 1;
    }
  }

  // ------------------------------------------------ swap, draw and restore

  /** Renders `alt` as the collider of entity `id`: the entity's collider is
      set to `alt`, the collider is rendered, and the old collider is put back. */
  function SwapRender(world: World, id: EntityId, alt: Collider, color: Color): (r: Outcome)
    requires id in world
    ensures r.world == world
    ensures r.events == [RenderCollider(alt, color, Some(alt))]
  {
    var saved := world[id].collider;
    var swapped := world[id := world[id].(collider := Some(alt))];
    var drawn := RenderCollider(alt, color, swapped[id].collider);
    var restored := swapped[id := swapped[id].(collider := saved)];
    assert restored == world;
    Outcome([drawn], restored)
  }

  // ------------------------------------------------- holdable colliders

  /** A `Holdable` component: whether its entity is a `Glider`, whether it is
      held, and its entity's position. */
  datatype Holdable = Holdable(isGlider: bool, isHeld: bool, position: Vec)

  /** A `HoldableCollider` component: its entity and its private `collider`. */
  datatype HoldableCollider = HoldableCollider(owner: EntityId, collider: Option<Collider>)

  /** The scene of the entity list: a level with its tracked components, or
      another kind of scene. */
  datatype Scene =
    | Level(holdables: seq<Holdable>, holdableColliders: seq<HoldableCollider>)
    | OtherScene

  /** `Entity.DistanceSquared` */
  function DistanceSquared(a: Vec, b: Vec): real {
    (a.x - b.x) * (a.x - b.x) + (a.y - b.y) * (a.y - b.y)
  }

  /** The holdable-collider colour: blue near a glider, green otherwise, at a
      quarter opacity when the owner is not collidable (the half factor is
      applied twice). */
  function HoldableColliderColor(chosen: Holdable, collidable: bool): (c: Color)
    ensures c.base == (if chosen.isGlider then GliderBlue else HoldableGreen)
    ensures c.factor == (if collidable then 1.0 else 0.25)
  {
    var color := Opaque(if chosen.isGlider then GliderBlue else HoldableGreen);
    var color' := Times(color, CollidableFactor(collidable));
    Times(color', CollidableFactor(collidable))
  }

  /** A holdable collider is rendered when it has a collider and the holdable
      the sort put first is not a held glider. */
  predicate Rendered(c: HoldableCollider, chosen: Holdable) {
    c.collider.Some? && !(chosen.isHeld && chosen.isGlider)
  }

  /** The render of a holdable collider: its collider, in the colour of the
      chosen holdable, while it is the owner's active collider. */
  function ColliderRender(c: HoldableCollider, chosen: Holdable, world: World): Event
    requires c.collider.Some? && c.owner in world
  {
    RenderCollider(c.collider.value, HoldableColliderColor(chosen, world[c.owner].collidable), c.collider)
  }

  /** One iteration of the loop over holdable colliders, with `chosen` the
      holdable that the sort put first. */
  function HoldableColliderPass(c: HoldableCollider, chosen: Holdable, world: World): (r: Outcome)
    requires c.owner in world
    ensures r.world == world
    ensures r.events == [] <==> !Rendered(c, chosen)
    ensures r.events != [] ==>
      r.events == [RenderCollider(c.collider.value,
                                  HoldableColliderColor(chosen, world[c.owner].collidable),
                                  Some(c.collider.value))]
  {
    if c.collider.None? then Outcome([], world)
    else if chosen.isHeld && chosen.isGlider then Outcome([], world)
    else SwapRender(world, c.owner, c.collider.value,
                    HoldableColliderColor(chosen, world[c.owner].collidable))
  }

  /** What the caller must supply for a level: every holdable collider's
      entity exists, and `pick[i]` is the index of the holdable the sort puts
      first for the `i`-th holdable collider. */
  predicate LevelInputs(holdables: seq<Holdable>, cs: seq<HoldableCollider>, world: World, pick: seq<nat>) {
    && |pick| == |cs|
    && (forall i :: 0 <= i < |cs| ==> cs[i].owner in world)
    && (|holdables| > 0 ==> forall i :: 0 <= i < |pick| ==> pick[i] < |holdables|)
  }

  /** The handler draws nothing beyond calling `orig`. */
  predicate HoldablesQuiet(show: bool, scene: Scene) {
    || !show
    || scene.OtherScene?
    || |scene.holdables| == 0
    || (forall h :: h in scene.holdables ==> h.isGlider && h.isHeld)
  }

  /** A trace of holdable-collider renders: each renders its collider while
      it is the owner's active collider, in one of the two holdable colours. */
  predicate HoldableRenders(events: seq<Event>) {
    forall k :: 0 <= k < |events| ==>
      && events[k].RenderCollider?
      && events[k].active == Some(events[k].collider)
      && events[k].color.base in {GliderBlue, HoldableGreen}
      && events[k].color.factor in {1.0, 0.25}
  }

  /** How many of the first `n` holdable colliders are rendered. */
  function RenderedBefore(holdables: seq<Holdable>, cs: seq<HoldableCollider>, pick: seq<nat>, n: nat): (k: nat)
    requires n <= |cs| == |pick|
    requires forall i :: 0 <= i < |pick| ==> pick[i] < |holdables|
    ensures k <= n
  {
    if n == 0 then 0
    else RenderedBefore(holdables, cs, pick, n - 1) + (if Rendered(cs[n - 1], holdables[pick[n - 1]]) then 1 else 0)
  }

  /** The count over a prefix of the colliders is the count over the whole. */
  lemma {:induction false} RenderedBeforePrefix(holdables: seq<Holdable>, cs: seq<HoldableCollider>, pick: seq<nat>, m: nat, n: nat)
    requires n <= m <= |cs| == |pick|
    requires forall i :: 0 <= i < |pick| ==> pick[i] < |holdables|
    ensures RenderedBefore(holdables, cs[..m], pick[..m], n) == RenderedBefore(holdables, cs, pick, n)
    decreases n
  {
    if n > 0 {
      RenderedBeforePrefix(holdables, cs, pick, m, n - 1);
      assert cs[..m][n - 1] == cs[n - 1] && pick[..m][n - 1] == pick[n - 1];
    }
  }

  /** The loop over holdable colliders: the `i`-th collider, when rendered,
      gives the render at the position counting the rendered colliders before
      it, and nothing else is drawn. */
  function HoldableColliderPasses(holdables: seq<Holdable>, cs: seq<HoldableCollider>, world: World, pick: seq<nat>): (r: Outcome)
    requires |holdables| > 0
    requires LevelInputs(holdables, cs, world, pick)
    ensures r.world == world
    ensures HoldableRenders(r.events)
    ensures |r.events| == RenderedBefore(holdables, cs, pick, |cs|)
    ensures forall i :: 0 <= i < |cs| && Rendered(cs[i], holdables[pick[i]]) ==>
      && RenderedBefore(holdables, cs, pick, i) < |r.events|
      && r.events[RenderedBefore(holdables, cs, pick, i)] == ColliderRender(cs[i], holdables[pick[i]], world)
    decreases |cs|
  {
    if |cs| == 0 then Outcome([], world)
    else
      var n := |cs| - 1;
      var init := HoldableColliderPasses(holdables, cs[..n], world, pick[..n]);
      var last := HoldableColliderPass(cs[n], holdables[pick[n]], world);
      PassesStep(holdables, cs, world, pick, init.events, last.events);
      Outcome(init.events + last.events, world)
  }

  /** The inductive step of `HoldableColliderPasses`: the renders of all but
      the last collider followed by the last one's pass. */
  lemma PassesStep(holdables: seq<Holdable>, cs: seq<HoldableCollider>, world: World, pick: seq<nat>,
                   init: seq<Event>, last: seq<Event>)
    requires |holdables| > 0 && |cs| > 0
    requires LevelInputs(holdables, cs, world, pick)
    requires var n := |cs| - 1;
      && |init| == RenderedBefore(holdables, cs[..n], pick[..n], n)
      && (forall i :: 0 <= i < n && Rendered(cs[..n][i], holdables[pick[..n][i]]) ==>
            && RenderedBefore(holdables, cs[..n], pick[..n], i) < |init|
            && init[RenderedBefore(holdables, cs[..n], pick[..n], i)] == ColliderRender(cs[..n][i], holdables[pick[..n][i]], world))
      && last == HoldableColliderPass(cs[n], holdables[pick[n]], world).events
    ensures |init + last| == RenderedBefore(holdables, cs, pick, |cs|)
    ensures forall i :: 0 <= i < |cs| && Rendered(cs[i], holdables[pick[i]]) ==>
      && RenderedBefore(holdables, cs, pick, i) < |init + last|
      && (init + last)[RenderedBefore(holdables, cs, pick, i)] == ColliderRender(cs[i], holdables[pick[i]], world)
  {
    var n := |cs| - 1;
    RenderedBeforePrefix(holdables, cs, pick, n, n);
    forall i | 0 <= i < |cs| && Rendered(cs[i], holdables[pick[i]])
      ensures RenderedBefore(holdables, cs, pick, i) < |init + last|
      ensures (init + last)[RenderedBefore(holdables, cs, pick, i)] == ColliderRender(cs[i], holdables[pick[i]], world)
    {
      if i < n {
        RenderedBeforePrefix(holdables, cs, pick, n, i);
        assert cs[..n][i] == cs[i] && pick[..n][i] == pick[i];
      }
    }
  }

  /** The `EntityList.DebugRender` hook: `orig`, then, in a level with some
      holdable that is not a held glider, the renders of the holdable
      colliders in order. */
  function AddHoldableColliderHitbox(show: bool, scene: Scene, world: World, pick: seq<nat>): (r: Outcome)
    requires scene.Level? ==> LevelInputs(scene.holdables, scene.holdableColliders, world, pick)
    ensures r.world == world
    ensures |r.events| >= 1 && r.events[0] == CallOrig
    ensures OrigCalls(r.events) == 1
    ensures HoldablesQuiet(show, scene) ==> r.events == [CallOrig]
    ensures HoldableRenders(r.events[1..])
    ensures !HoldablesQuiet(show, scene) ==>
      var hs, cs := scene.holdables, scene.holdableColliders;
      && |r.events| == 1 + RenderedBefore(hs, cs, pick, |cs|)
      && forall i :: 0 <= i < |cs| && Rendered(cs[i], hs[pick[i]]) ==>
           1 + RenderedBefore(hs, cs, pick, i) < |r.events| &&
           r.events[1 + RenderedBefore(hs, cs, pick, i)] == ColliderRender(cs[i], hs[pick[i]], world)
  {
    if HoldablesQuiet(show, scene) then Outcome([CallOrig], world)
    else
      var passes := HoldableColliderPasses(scene.holdables, scene.holdableColliders, world, pick);
      NoOrigInRenders(passes.events);
      Outcome([CallOrig] + passes.events, passes.world)
  }

  lemma {:induction false} NoOrigInRenders(events: seq<Event>)
    requires HoldableRenders(events)
    ensures OrigCalls(events) == 0
    ensures OrigCalls([CallOrig] + events) == 1
  {
    if |events| > 0 {
      NoOrigInRenders(events[1..]);
    }
    assert ([CallOrig] + events)[1..] == events;
  }

  /** The nearest-first choice the distance comparator of the holdable sort
      evidently aims at: the first holdable at the least squared distance
      from `p`. That comparator never answers "less", so the order the sort
      leaves is up to the sort algorithm and the handlers take the choice as
      `pick`; this is the reference `pick` should follow. */
  method NearestIndex(holdables: seq<Holdable>, p: Vec) returns (k: nat)
    requires |holdables| > 0
    ensures k < |holdables|
    ensures forall j :: 0 <= j < |holdables| ==>
      DistanceSquared(holdables[k].position, p) <= DistanceSquared(holdables[j].position, p)
    ensures forall j :: 0 <= j < k ==>
      DistanceSquared(holdables[j].position, p) > DistanceSquared(holdables[k].position, p)
  {
    k := 0;
    var i := 1;
    while i < |holdables|
      invariant 1 <= i <= |holdables|
      invariant k < i
      invariant forall j :: 0 <= j < i ==>
        DistanceSquared(holdables[k].position, p) <= DistanceSquared(holdables[j].position, p)
      invariant forall j :: 0 <= j < k ==>
        DistanceSquared(holdables[j].position, p) > DistanceSquared(holdables[k].position, p)
    {
      if DistanceSquared(holdables[i].position, p) < DistanceSquared(holdables[k].position, p) {
        k := i;
      }
      i := i + 1;
    }
  }

  /** The `pick` of the nearest-first order: for each holdable collider, the
      first holdable nearest to the collider's entity. It is a valid `pick`
      for `AddHoldableColliderHitbox`. */
  method NearestPicks(holdables: seq<Holdable>, cs: seq<HoldableCollider>, world: World) returns (pick: seq<nat>)
    requires |holdables| > 0
    requires forall i :: 0 <= i < |cs| ==> cs[i].owner in world
    ensures LevelInputs(holdables, cs, world, pick)
    ensures forall i, j :: 0 <= i < |cs| && 0 <= j < |holdables| ==>
      DistanceSquared(holdables[pick[i]].position, world[cs[i].owner].position)
        <= DistanceSquared(holdables[j].position, world[cs[i].owner].position)
  {
    pick := [];
    while |pick| < |cs|
      invariant |pick| <= |cs|
      invariant forall i :: 0 <= i < |pick| ==> pick[i] < |holdables|
      invariant forall i, j :: 0 <= i < |pick| && 0 <= j < |holdables| ==>
        DistanceSquared(holdables[pick[i]].position, world[cs[i].owner].position)
          <= DistanceSquared(holdables[j].position, world[cs[i].owner].position)
    {
      var k := NearestIndex(holdables, world[cs[|pick|].owner].position);
      pick := pick + [k];
    }
  }

  // ---------------------------------------------------------- the feather

  /** The delegate spliced after `Color.HotPink` in `PlayerCollider.DebugRender`:
      a non-collidable owner halves the colour's opacity; the hue is kept. */
  function PlayerColliderColor(color: Color, collidable: bool): (r: Color)
    ensures r.base == color.base
    ensures collidable ==> r == color
    ensures !collidable ==> 2.0 * r.factor == color.factor
  {
    if collidable then color else Times(color, 0.5)
  }

  /** The feather collider is shown while feather-flying. */
  predicate FeatherShown(show: bool, feather: Option<Collider>, player: Option<Player>) {
    show && feather.Some? && player.Some? && player.value.state == StStarFly
  }

  /** The `PlayerCollider.DebugRender` hook; `owner` is the component's entity. */
  function AddFeatherHitbox(show: bool, owner: EntityId, feather: Option<Collider>,
                            player: Option<Player>, world: World): (r: Outcome)
    requires owner in world
    ensures r.world == world
    ensures |r.events| >= 1 && r.events[0] == CallOrig
    ensures |r.events| == (if FeatherShown(show, feather, player) then 2 else 1)
    ensures |r.events| == 2 ==>
      r.events[1] == RenderCollider(feather.value,
                                    Color(HotPink, if world[owner].collidable then 1.0 else 0.5),
                                    Some(feather.value))
  {
    if FeatherShown(show, feather, player) then
      var color := Times(Opaque(HotPink), if world[owner].collidable then 1.0 else 0.5);
      var drawn := SwapRender(world, owner, feather.value, color);
      Outcome([CallOrig] + drawn.events, drawn.world)
    else
      Outcome([CallOrig], world)
  }

  // ------------------------------------------------------------ fireballs

  /** The `Circle.Render` hook; `owner` is the circle's entity, if any. */
  function CircleOnRender(show: bool, owner: Option<EntityKind>, color: Color): (r: seq<Event>)
    ensures |r| == 1 && r[0].CallOrigWith?
    ensures show && owner.Some? && owner.value.FireBall? && !owner.value.iceMode ==>
      r[0].color == Opaque(Goldenrod)
    ensures !(show && owner.Some? && owner.value.FireBall? && !owner.value.iceMode) ==>
      r[0].color == color
  {
    if !show then [CallOrigWith(color)]
    else
      var c := if owner.Some? && owner.value.FireBall? && !owner.value.iceMode then Opaque(Goldenrod) else color;
      [CallOrigWith(c)]
  }

  // -------------------------------------------------------- sound sources

  /** The `SoundSource.DebugRender` hook: the gate is inverted, the original
      runs only while hitboxes are hidden. */
  function SoundSourceDebugRender(show: bool): (r: seq<Event>)
    ensures OrigCalls(r) == (if show then 0 else 1)
    ensures forall k :: 0 <= k < |r| ==> r[k] == CallOrig
  {
    if !show then [CallOrig] else []
  }

  // -------------------------------------------------------------- seekers

  /** The `Seeker.DebugRender` hook; it does not read `ShowHitboxes`. */
  function SeekerOnDebugRender(seeker: EntityId, regenerating: bool, pushRadius: Option<Collider>,
                               world: World): (r: Outcome)
    requires seeker in world
    ensures r.world == world
    ensures |r.events| >= 1 && r.events[0] == CallOrig
    ensures |r.events| == (if regenerating && pushRadius.Some? then 2 else 1)
    ensures |r.events| == 2 ==>
      r.events[1] == RenderCollider(pushRadius.value, Opaque(EntityColor), Some(pushRadius.value))
  {
    if regenerating && pushRadius.Some? then
      var drawn := SwapRender(world, seeker, pushRadius.value, Opaque(EntityColor));
      Outcome([CallOrig] + drawn.events, drawn.world)
    else
      Outcome([CallOrig], world)
  }
}

=== FILE: hotkey_dialog.dfy ===
/** The Studio's hotkey capture dialog: it follows the held modifiers on its
    label, ignores presses of modifier keys alone, warns about hotkeys already
    in use, and closes with the chosen hotkey. */
module HotkeyDialog {
  import opened Optional
  import opened Keys
  import opened Studio
  import Text

  // ------------------------------------------------------------ the label

  /** The press label: the prompt, or the modifiers being held. */
  datatype PressLabel = Prompt | Held(mods: set<Modifier>)

  function LabelFor(mods: set<Modifier>): PressLabel {
    if mods == {} then Prompt else Held(mods)
  }

  /** The modifiers shown while a key goes down: a modifier key counts as held
      before the event reports it. */
  function KeyDownModifiers(e: KeyEvent): (mods: set<Modifier>)
    ensures forall m :: m in mods <==> m in e.modifiers || (e.key.ModifierKey? && m == e.key.modifier)
  {
    if e.key.ModifierKey? then e.modifiers + {e.key.modifier} else e.modifiers
  }

  /** The modifiers shown when a key comes up: a released modifier key no
      longer counts, even if the event still reports it. */
  function KeyUpModifiers(e: KeyEvent): (mods: set<Modifier>)
    ensures forall m :: m in mods <==> m in e.modifiers && !(e.key.ModifierKey? && m == e.key.modifier)
  {
    if e.key.ModifierKey? then e.modifiers - {e.key.modifier} else e.modifiers
  }

  // -------------------------------------------------------- the decision

  type MenuEntry = nat

  /** What the dialog is opened with: the hotkey being edited, the key
      bindings and snippets to check against, and the platform's
      `CommonModifier` and `Keys.Escape`. */
  datatype Context = Context(
    current: Hotkey,
    keyBindings: seq<(MenuEntry, Hotkey)>,
    snippets: seq<Snippet>,
    commonModifier: Modifier,
    escape: KeyCode)

  /** `CommonModifier | Keys.Escape`, the chord that clears the hotkey. */
  function ClearChord(ctx: Context): Hotkey {
    KeyHotkey(Keys({ctx.commonModifier}, ctx.escape))
  }

  /** The key-binding entries already bound to `h`, in order. */
  function ConflictingBindings(bindings: seq<(MenuEntry, Hotkey)>, h: Hotkey): (r: seq<MenuEntry>)
    ensures |r| <= |bindings|
    ensures forall e :: e in r <==> (e, h) in bindings
  {
    if |bindings| == 0 then []
    else
      var rest := ConflictingBindings(bindings[1..], h);
      assert forall b :: b in bindings <==> b == bindings[0] || b in bindings[1..];
      (if bindings[0].1 == h then [bindings[0].0] else []) + rest
  }

  /** The snippets already using `h`, in order. */
  function ConflictingSnippets(snippets: seq<Snippet>, h: Hotkey): (r: seq<Snippet>)
    ensures |r| <= |snippets|
    ensures forall s :: s in r <==> s in snippets && s.hotkey == h
  {
    if |snippets| == 0 then []
    else
      var rest := ConflictingSnippets(snippets[1..], h);
      assert forall s :: s in snippets <==> s == snippets[0] || s in snippets[1..];
      (if snippets[0].hotkey == h then [snippets[0]] else []) + rest
  }

  predicate HasConflicts(ctx: Context, h: Hotkey) {
    |ConflictingBindings(ctx.keyBindings, h)| > 0 || |ConflictingSnippets(ctx.snippets, h)| > 0
  }

  /** `OnHotkeyDown`: `None` keeps the dialog open, `Some(h)` closes it with
      `h`. `confirmed` is the user's answer to the conflict warning, asked
      only when there are conflicts. */
  function OnHotkeyDown(ctx: Context, newHotkey: Hotkey, confirmed: bool): (r: Option<Hotkey>)
    ensures newHotkey == ctx.current ==> r == Some(ctx.current)
    ensures r.None? <==> newHotkey != ctx.current && HasConflicts(ctx, newHotkey) && !confirmed
    ensures r.Some? && newHotkey != ctx.current ==>
      r.value == (if newHotkey == ClearChord(ctx) then NoHotkey else newHotkey)
    ensures newHotkey != ctx.current && !HasConflicts(ctx, newHotkey) ==> r.Some?
  {
    if newHotkey == ctx.current then Some(ctx.current)
    else if HasConflicts(ctx, newHotkey) && !confirmed then None
    else if newHotkey == ClearChord(ctx) then Some(NoHotkey)
    else Some(newHotkey)
  }

  // ------------------------------------------------------- the dialog

  /** What can happen while the dialog is shown. `confirmed` answers the
      conflict warning should one be shown. */
  datatype Input =
    | KeyDown(e: KeyEvent, confirmed: bool)
    | KeyUp(e: KeyEvent)
    | TextInput(text: string, confirmed: bool)
    | ClearClicked

  datatype DialogState = Open(shown: PressLabel) | Closed(result: Hotkey)

  /** The dialog's reaction to one input while it is open. */
  function Handle(ctx: Context, pressLabel: PressLabel, input: Input): (s: DialogState)
    ensures input.KeyDown? && input.e.key.ModifierKey? ==> s == Open(LabelFor(KeyDownModifiers(input.e)))
    ensures input.KeyUp? ==> s == Open(LabelFor(KeyUpModifiers(input.e)))
    ensures input.KeyDown? && input.e.key.OtherKey? ==>
      s == match OnHotkeyDown(ctx, FromEvent(input.e), input.confirmed)
           case None => Open(LabelFor(KeyDownModifiers(input.e)))
           case Some(h) => Closed(h)
    ensures input.TextInput? && Text.Utf16Length(input.text) != 1 ==> s == Open(pressLabel)
    ensures input.TextInput? && Text.Utf16Length(input.text) == 1 ==>
      s == match OnHotkeyDown(ctx, CharHotkey(input.text[0]), input.confirmed)
           case None => Open(pressLabel)
           case Some(h) => Closed(h)
    ensures input.ClearClicked? ==> s == Closed(NoHotkey)
  {
    match input
    case KeyUp(e) => Open(LabelFor(KeyUpModifiers(e)))
    case KeyDown(e, confirmed) =>
      var shown := LabelFor(KeyDownModifiers(e));
      if e.key.ModifierKey? then Open(shown)
      else
        (match OnHotkeyDown(ctx, FromEvent(e), confirmed)
         case None => Open(shown)
         case Some(h) => Closed(h))
    case TextInput(text, confirmed) =>
      if Text.Utf16Length(text) != 1 then Open(pressLabel)
      else
        (match OnHotkeyDown(ctx, CharHotkey(text[0]), confirmed)
         case None => Open(pressLabel)
         case Some(h) => Closed(h))
    case ClearClicked => Closed(NoHotkey)
  }

  /** The dialog after a run of inputs; once closed it takes no more. */
  function Run(ctx: Context, s: DialogState, inputs: seq<Input>): DialogState
    decreases |inputs|
  {
    if |inputs| == 0 || s.Closed? then s
    else Run(ctx, Handle(ctx, s.shown, inputs[0]), inputs[1..])
  }

  /** `ShowModal`'s value: the result it was closed with, or the preset
      `Result`, the hotkey being edited. */
  function Outcome(ctx: Context, s: DialogState): Hotkey {
    if s.Closed? then s.result else ctx.current
  }

  /** An input that cannot close the dialog: a modifier key pressed alone or
      any key released. */
  predicate ModifierOnly(input: Input) {
    input.KeyUp? || (input.KeyDown? && input.e.key.ModifierKey?)
  }

  /** Pressing and releasing modifier keys alone never closes the dialog, so
      a modifier is never bound by itself. */
  lemma {:induction false} ModifiersAloneKeepOpen(ctx: Context, pressLabel: PressLabel, inputs: seq<Input>)
    requires forall i :: 0 <= i < |inputs| ==> ModifierOnly(inputs[i])
    ensures Run(ctx, Open(pressLabel), inputs).Open?
    ensures Outcome(ctx, Run(ctx, Open(pressLabel), inputs)) == ctx.current
    decreases |inputs|
  {
    if |inputs| > 0 {
      var s := Handle(ctx, pressLabel, inputs[0]);
      assert s.Open?;
      ModifiersAloneKeepOpen(ctx, s.shown, inputs[1..]);
    }
  }

  /** A hotkey the dialog can close with. */
  predicate Acceptable(ctx: Context, h: Hotkey, input: Input) {
    || h == NoHotkey
    || h == ctx.current
    || (input.KeyDown? && input.e.key.OtherKey? && h == FromEvent(input.e))
    || (input.TextInput? && Text.Utf16Length(input.text) == 1 && h == CharHotkey(input.text[0]))
  }

  /** The dialog only ever yields the edited hotkey, `Hotkey.None`, or the
      hotkey of a non-modifier key or single character typed into it. */
  lemma {:induction false} RunResult(ctx: Context, pressLabel: PressLabel, inputs: seq<Input>)
    ensures var h := Outcome(ctx, Run(ctx, Open(pressLabel), inputs));
      h == ctx.current || h == NoHotkey || exists i :: 0 <= i < |inputs| && Acceptable(ctx, h, inputs[i])
    decreases |inputs|
  {
    if |inputs| > 0 {
      var s := Handle(ctx, pressLabel, inputs[0]);
      if s.Open? {
        RunResult(ctx, s.shown, inputs[1..]);
        var h := Outcome(ctx, Run(ctx, Open(pressLabel), inputs));
        if exists i :: 0 <= i < |inputs[1..]| && Acceptable(ctx, h, inputs[1..][i]) {
          var i :| 0 <= i < |inputs[1..]| && Acceptable(ctx, h, inputs[1..][i]);
          assert inputs[i + 1] == inputs[1..][i];
        }
      } else {
        assert Acceptable(ctx, s.result, inputs[0]);
      }
    }
  }

  // ------------------------------------------------ the conflict warning

  /** The warning's text for a snippet's insert: its first line after the
      line endings are normalised, with `...` when more lines follow. */
  function InsertSummary(insert: string): string {
    var lines := Text.Split(Text.ReplaceLineEndings(insert), Text.NewLine);
    lines[0] + (if |lines| > 1 then "..." else "")
  }

  /** The warning's line for a conflicting snippet. */
  function SnippetConflictLine(s: Snippet): string {
    var shortcut := if !Text.IsBlank(s.shortcut) then "'" + s.shortcut + "' = " else "";
    "    - " + shortcut + "'" + InsertSummary(s.insert) + "'"
  }

  /** The summary is the first line of the insert as typed, followed by
      `...` exactly when it has a newline sequence. */
  lemma InsertSummaryShape(insert: string)
    ensures InsertSummary(insert) == Text.FirstLine(insert) + (if Text.HasLineBreak(insert) then "..." else "")
  {
    Text.LinesOfNormalized(insert);
  }

  /** A conflicting snippet is listed by the first line of its text, followed
      by `...` exactly when the text has more lines, and is prefixed with its
      shortcut only when that is not blank. */
  lemma SnippetConflictLineShape(s: Snippet)
    ensures SnippetConflictLine(s) ==
      "    - "
      + (if Text.IsBlank(s.shortcut) then "" else "'" + s.shortcut + "' = ")
      + "'" + Text.FirstLine(s.insert) + (if Text.HasLineBreak(s.insert) then "..." else "") + "'"
  {
    InsertSummaryShape(s.insert);
  }
}

=== FILE: keys.dfy ===
/** Eto's `Keys` flag enumeration and the key events the Studio dialogs
    receive. The enumeration's numeric values are not part of this model: a
    `Keys` value is kept as its two disjoint halves, the modifier flags and the
    bits under `Keys.KeyMask`. */
module Keys {

  /** The modifier flags of `Keys`, in the order `Settings.Save` lists them. */
  datatype Modifier = Application | Control | Alt | Shift

  /** The bits of a `Keys` value under `Keys.KeyMask`: the key itself. */
  type KeyCode = bv32

  /** A `Keys` value: `HasFlag(m)` is `m in mods`, `k & Keys.KeyMask` is `code`. */
  datatype Keys = Keys(mods: set<Modifier>, code: KeyCode)

  /** `Keys.None` */
  const NoKeys: Keys := Keys({}, 0)

  /** Bitwise `a | b` of two `Keys` values. */
  function Or(a: Keys, b: Keys): Keys {
    Keys(a.mods + b.mods, a.code | b.code)
  }

  /** The physical key of a key event: one of the eight modifier keys
      (`LeftShift`, `RightShift`, ..., `RightApplication`) or any other key. */
  datatype PhysicalKey =
    | ModifierKey(modifier: Modifier, right: bool)
    | OtherKey(code: KeyCode)

  /** A key event: `e.Key` and `e.Modifiers`. */
  datatype KeyEvent = KeyEvent(key: PhysicalKey, modifiers: set<Modifier>)

  /** `e.KeyData`, the key combined with the held modifiers; only read for
      events whose key is not a modifier key. */
  function KeyData(e: KeyEvent): (k: Keys)
    requires e.key.OtherKey?
  {
    Keys(e.modifiers, e.key.code)
  }
}

/** The Studio's `Hotkey` and `Snippet` records as the dialogs use them. */
module Studio {
  import opened Keys

  /** A hotkey is either a key combination or a typed character. */
  datatype Hotkey = KeyHotkey(keys: Keys) | CharHotkey(ch: char)

  /** `Hotkey.None` */
  const NoHotkey: Hotkey := KeyHotkey(NoKeys)

  /** `Hotkey.FromEvent(e)` for a non-modifier key. */
  function FromEvent(e: KeyEvent): Hotkey
    requires e.key.OtherKey?
  {
    KeyHotkey(KeyData(e))
  }

  /** A text snippet: inserted text, its typed shortcut and its hotkey. */
  datatype Snippet = Snippet(enabled: bool, hotkey: Hotkey, shortcut: string, insert: string)

  /** `new Snippet()`: enabled, without a hotkey, with empty texts. */
  const NewSnippet: Snippet := Snippet(true, NoHotkey, "", "")
}

=== FILE: menu.dfy ===
/** The CelesteTAS mod-options menu: dialog keys, option lists for sliders
    and toggles, and the visibility of the option items. */
module Menu {
  import opened Optional
  import Text

  /** The dictionary key `ToDialogText` looks up: `"TAS_"` followed by the
      input with every space replaced by `_`. The lookup itself
      (`Dialog.Clean`) is the `clean` parameter of the builders below. */
  function DialogKey(input: string): (key: string)
    ensures |key| == |input| + 4
    ensures key[..4] == "TAS_"
    ensures forall i :: 0 <= i < |input| ==> key[4 + i] == (if input[i] == ' ' then '_' else input[i])
    ensures ' ' !in key
  {
    "TAS_" + Text.ReplaceChar(input, ' ', '_')
  }

  // ------------------------------------------------------ slider options

  /** One entry of a slider: a value (`null` for Default) and its label. */
  datatype SliderOption = SliderOption(value: Option<int>, caption: string)

  /** The label of a value: the given formatter, or `ToString()`. */
  function Format(formatter: Option<int -> string>, v: int): string {
    match formatter
    case Some(f) => f(v)
    case None => Text.IntToString(v)
  }

  function Abs(x: int): nat {
    if x < 0 then -x else x
  }

  /** `CreateSliderOptions(start, end, formatter)`: Default first, then every
      value from `start` to `end` inclusive, counting up or down. */
  method CreateSliderOptions(start: int, end: int, formatter: Option<int -> string>, clean: string -> string)
    returns (r: seq<SliderOption>)
    ensures |r| == Abs(end - start) + 2
    ensures r[0] == SliderOption(None, clean(DialogKey("Default")))
    ensures start <= end ==> forall i :: 1 <= i < |r| ==>
      r[i] == SliderOption(Some(start + (i - 1)), Format(formatter, start + (i - 1)))
    ensures start > end ==> forall i :: 1 <= i < |r| ==>
      r[i] == SliderOption(Some(start - (i - 1)), Format(formatter, start - (i - 1)))
  {
    var default := SliderOption(None, clean(DialogKey("Default")));
    var values: seq<SliderOption>;
    if start <= end {
      values := CountUp(start, end, formatter);
    } else {
      values := CountDown(start, end, formatter);
    }
    r := [default] + values;
    assert forall i :: 1 <= i < |r| ==> r[i] == values[i - 1];
  }

  /** The ascending loop: every value from `start` up to `end`. */
  method CountUp(start: int, end: int, formatter: Option<int -> string>) returns (result: seq<SliderOption>)
    requires start <= end
    ensures |result| == end - start + 1
    ensures forall i :: 0 <= i < |result| ==>
      result[i] == SliderOption(Some(start + i), Format(formatter, start + i))
  {
    result := [];
    var current := start;
    while current <= end
      invariant start <= current <= end + 1
      invariant |result| == current - start
      invariant forall i :: 0 <= i < |result| ==>
        result[i] == SliderOption(Some(start + i), Format(formatter, start + i))
    {
      result := result + [SliderOption(Some(current), Format(formatter, current))];
      current := current + 1;
    }
  }

  /** The descending loop: every value from `start` down to `end`. */
  method CountDown(start: int, end: int, formatter: Option<int -> string>) returns (result: seq<SliderOption>)
    requires start > end
    ensures |result| == start - end + 1
    ensures forall i :: 0 <= i < |result| ==>
      result[i] == SliderOption(Some(start - i), Format(formatter, start - i))
  {
    result := [];
    var current := start;
    while current >= end
      invariant end - 1 <= current <= start
      invariant |result| == start - current
      invariant forall i :: 0 <= i < |result| ==>
        result[i] == SliderOption(Some(start - i), Format(formatter, start - i))
    {
      result := result + [SliderOption(Some(current), Format(formatter, current))];
      current := current - 1;
    }
  }

  /** With the default formatter, distinct slider values get distinct
      labels. */
  lemma DefaultLabelsDistinct(a: int, b: int)
    requires a != b
    ensures Format(None, a) != Format(None, b)
  {
    Text.IntToStringInjective(a, b);
  }

  // ------------------------------------------ the loops on 32-bit ints

  const IntMin: int := -0x8000_0000
  const IntMax: int := 0x7fff_ffff

  predicate IsInt32(x: int) {
    IntMin <= x <= IntMax
  }

  /** C#'s unchecked `current++` on `int`. */
  function Increment32(x: int): (y: int)
    requires IsInt32(x)
    ensures IsInt32(y)
  {
    if x == IntMax then IntMin else x + 1
  }

  /** C#'s unchecked `current--` on `int`. */
  function Decrement32(x: int): (y: int)
    requires IsInt32(x)
    ensures IsInt32(y)
  {
    if x == IntMin then IntMax else x - 1
  }

  /** The ascending loop `for (current = start; current <= end; current++)`
      as written, on 32-bit ints, run for at most `steps` iterations: the
      values it adds and whether its condition became false. */
  function AscendingAsWritten(current: int, end: int, steps: nat): (seq<int>, bool)
    requires IsInt32(current) && IsInt32(end)
    decreases steps
  {
    if !(current <= end) then ([], true)
    else if steps == 0 then ([], false)
    else
      var rest := AscendingAsWritten(Increment32(current), end, steps - 1);
      ([current] + rest.0, rest.1)
  }

  /** The descending loop `for (current = start; current >= end; current--)`
      as written, on 32-bit ints, run for at most `steps` iterations. */
  function DescendingAsWritten(current: int, end: int, steps: nat): (seq<int>, bool)
    requires IsInt32(current) && IsInt32(end)
    decreases steps
  {
    if !(current >= end) then ([], true)
    else if steps == 0 then ([], false)
    else
      var rest := DescendingAsWritten(Decrement32(current), end, steps - 1);
      ([current] + rest.0, rest.1)
  }

  /** With `end == int.MaxValue` the ascending loop never ends: however many
      iterations run, its condition still holds, because `current++` wraps
      around to `int.MinValue`. */
  lemma {:induction false} AscendingNeverExits(start: int, steps: nat)
    requires IsInt32(start)
    ensures !AscendingAsWritten(start, IntMax, steps).1
    decreases steps
  {
    if steps > 0 {
      AscendingNeverExits(Increment32(start), steps - 1);
    }
  }

  /** With `end == int.MinValue` (and `start > end`) the descending loop
      never ends either. */
  lemma {:induction false} DescendingNeverExits(start: int, steps: nat)
    requires IsInt32(start)
    ensures !DescendingAsWritten(start, IntMin, steps).1
    decreases steps
  {
    if steps > 0 {
      DescendingNeverExits(Decrement32(start), steps - 1);
    }
  }

  /** Below `int.MaxValue` the ascending loop as written adds exactly the
      values `CreateSliderOptions` lists, and stops. */
  lemma {:induction false} AscendingAsWrittenBelowMax(current: int, end: int)
    requires IsInt32(current) && IsInt32(end)
    requires current <= end < IntMax
    ensures var (values, exited) := AscendingAsWritten(current, end, end - current + 1);
      && exited
      && |values| == end - current + 1
      && forall i :: 0 <= i < |values| ==> values[i] == current + i
    decreases end - current
  {
    if current < end {
      AscendingAsWrittenBelowMax(current + 1, end);
    }
  }

  /** Above `int.MinValue` the descending loop as written adds exactly the
      values from `current` down to `end`, and stops. */
  lemma {:induction false} DescendingAsWrittenAboveMin(current: int, end: int)
    requires IsInt32(current) && IsInt32(end)
    requires IntMin < end <= current
    ensures var (values, exited) := DescendingAsWritten(current, end, current - end + 1);
      && exited
      && |values| == current - end + 1
      && forall i :: 0 <= i < |values| ==> values[i] == current - i
    decreases current - end
  {
    if end < current {
      DescendingAsWrittenAboveMin(current - 1, end);
    }
  }

  // ------------------------------------------------------ toggle options

  /** One entry of an on/off option list. */
  datatype ToggleOption = ToggleOption(value: bool, caption: string)

  /** A two-entry option list: off is Default, on is `onLabel`. */
  function TwoOptions(clean: string -> string, onLabel: string): (r: seq<ToggleOption>)
    ensures |r| == 2 && !r[0].value && r[1].value
    ensures r[0].caption == clean(DialogKey("Default")) && r[1].caption == clean(DialogKey(onLabel))
  {
    [ToggleOption(false, clean(DialogKey("Default"))), ToggleOption(true, clean(DialogKey(onLabel)))]
  }

  /** `CreateDefaultHideOptions()`: off is Default, on is Hide. */
  function CreateDefaultHideOptions(clean: string -> string): (r: seq<ToggleOption>)
    ensures |r| == 2 && !r[0].value && r[1].value
    ensures r[0].caption == clean(DialogKey("Default")) && r[1].caption == clean(DialogKey("Hide"))
  {
    TwoOptions(clean, "Hide")
  }

  /** `CreateSimplifyOptions()`: off is Default, on is Simplify. */
  function CreateSimplifyOptions(clean: string -> string): (r: seq<ToggleOption>)
    ensures |r| == 2 && !r[0].value && r[1].value
    ensures r[0].caption == clean(DialogKey("Default")) && r[1].caption == clean(DialogKey("Simplify"))
  {
    TwoOptions(clean, "Simplify")
  }

  // -------------------------------------------------------- the menu

  /** The items `CreateMenu` adds: the Enabled switch, then the options. */
  datatype MenuItem = EnabledSwitch(on: bool) | OptionItem(id: nat, visible: bool)

  /** The `Enabled` setting with the menu's items. */
  datatype MenuState = MenuState(enabled: bool, items: seq<MenuItem>)

  /** Every option item is visible exactly when the mod is enabled. */
  predicate VisibilityFollowsEnabled(m: MenuState) {
    forall i :: 0 <= i < |m.items| && m.items[i].OptionItem? ==> m.items[i].visible == m.enabled
  }

  /** `CreateMenu`: the Enabled switch followed by the options, in order. */
  function CreateMenu(enabled: bool, options: seq<nat>): (m: MenuState)
    ensures m.enabled == enabled
    ensures |m.items| == |options| + 1 && m.items[0] == EnabledSwitch(enabled)
    ensures forall i :: 0 <= i < |options| ==> m.items[i + 1].OptionItem? && m.items[i + 1].id == options[i]
    ensures VisibilityFollowsEnabled(m)
  {
    MenuState(enabled, [EnabledSwitch(enabled)] + seq(|options|, i requires 0 <= i < |options| => OptionItem(options[i], enabled)))
  }

  /** The Enabled switch's change handler: stores the value and shows or hides
      every option item; the items themselves stay as they are. */
  function SetEnabled(m: MenuState, value: bool): (m': MenuState)
    ensures m'.enabled == value
    ensures VisibilityFollowsEnabled(m')
    ensures |m'.items| == |m.items|
    ensures forall i :: 0 <= i < |m.items| ==>
      m'.items[i].OptionItem? == m.items[i].OptionItem? &&
      (m.items[i].OptionItem? ==> m'.items[i].id == m.items[i].id)
  {
    MenuState(value, seq(|m.items|, i requires 0 <= i < |m.items| =>
      match m.items[i]
      case EnabledSwitch(_) => EnabledSwitch(value)
      case OptionItem(id, _) => OptionItem(id, value)))
  }
}

=== FILE: optional.dfy ===
/** The Some/None datatype, standing in for the nullable references and
    nullable values (`int?`, `Collider?`, `Player?`) of the modelled code. */
module Optional {

  datatype Option<+T> = None | Some(value: T)
}

=== FILE: settings.dfy ===
/** The Studio's settings: the recent-files list, the theme, and the naming
    of snippet shortcuts in the snippets file. */
module Settings {
  import opened Optional
  import opened Keys
  import Text

  // ----------------------------------------------------------- recent files

  /** `MaxRecentFiles` */
  const MaxRecentFiles: nat := 20

  datatype ThemeType = Light | Dark

  /** The settings this model covers. */
  datatype Settings = Settings(recentFiles: seq<string>, themeType: ThemeType)

  predicate NoDuplicates(s: seq<string>) {
    forall i, j :: 0 <= i < j < |s| ==> s[i] != s[j]
  }

  /** `List.Remove(x)`: drops the first occurrence of `x`, if any. */
  function RemoveFirst(s: seq<string>, x: string): (r: seq<string>)
    ensures x !in s ==> r == s
    ensures x in s ==> |r| == |s| - 1
    ensures forall y :: y in r ==> y in s
  {
    if |s| == 0 then s
    else if s[0] == x then s[1..]
    else [s[0]] + RemoveFirst(s[1..], x)
  }

  /** The elements of `s` other than `x`, in order: the reference the
      recent-files list is compared with. */
  function Without(s: seq<string>, x: string): (r: seq<string>)
    ensures x !in r
  {
    if |s| == 0 then s
    else (if s[0] == x then [] else [s[0]]) + Without(s[1..], x)
  }

  function Min(a: nat, b: nat): nat {
    if a <= b then a else b
  }

  /** `AddRecentFile(path)`: moves or inserts `path` at the front and keeps at
      most `MaxRecentFiles` entries. */
  function AddRecentFile(s: Settings, path: string): (r: Settings)
    ensures |r.recentFiles| >= 1 && r.recentFiles[0] == path
    ensures |r.recentFiles| <= MaxRecentFiles
    ensures r.themeType == s.themeType
    ensures forall f :: f in r.recentFiles ==> f == path || f in s.recentFiles
  {
    var moved := [path] + RemoveFirst(s.recentFiles, path);
    var kept := if |moved| > MaxRecentFiles then moved[..MaxRecentFiles] else moved;
    s.(recentFiles := kept)
  }

  /** `ClearRecentFiles()` */
  function ClearRecentFiles(s: Settings): (r: Settings)
    ensures |r.recentFiles| == 0
    ensures r.themeType == s.themeType
  {
    s.(recentFiles := [])
  }

  /** On a list without duplicates, removing the first occurrence removes
      every occurrence. */
  lemma {:induction false} RemoveFirstNoDuplicates(s: seq<string>, x: string)
    requires NoDuplicates(s)
    ensures RemoveFirst(s, x) == Without(s, x)
    ensures NoDuplicates(Without(s, x))
    ensures forall y :: y in Without(s, x) <==> y in s && y != x
    decreases |s|
  {
    if |s| > 0 {
      assert NoDuplicates(s[1..]) by {
        forall i, j | 0 <= i < j < |s[1..]| ensures s[1..][i] != s[1..][j] {
          assert s[1..][i] == s[i + 1] && s[1..][j] == s[j + 1];
        }
      }
      RemoveFirstNoDuplicates(s[1..], x);
      if s[0] == x {
        assert x !in s[1..] by {
          forall j | 0 < j < |s| ensures s[j] != x {
            assert s[0] != s[j];
          }
        }
        WithoutAbsent(s[1..], x);
      } else {
        assert s[0] !in s[1..] by {
          forall j | 0 < j < |s| ensures s[j] != s[0] {
            assert s[0] != s[j];
          }
        }
      }
    }
  }

  lemma {:induction false} WithoutAbsent(s: seq<string>, x: string)
    requires x !in s
    ensures Without(s, x) == s
    decreases |s|
  {
    if |s| > 0 {
      WithoutAbsent(s[1..], x);
    }
  }

  /** On a list without duplicates, `AddRecentFile` puts `path` first, keeps
      the other files in their order, drops only the tail beyond
      `MaxRecentFiles`, and leaves no duplicates. */
  lemma AddRecentFileOrder(s: Settings, path: string)
    requires NoDuplicates(s.recentFiles)
    ensures var moved := [path] + Without(s.recentFiles, path);
      AddRecentFile(s, path).recentFiles == moved[..Min(|moved|, MaxRecentFiles)]
    ensures NoDuplicates(AddRecentFile(s, path).recentFiles)
  {
    RemoveFirstNoDuplicates(s.recentFiles, path);
    var rest := Without(s.recentFiles, path);
    var moved := [path] + rest;
    PrependFreshNoDuplicates(path, rest);
    PrefixNoDuplicates(moved, Min(|moved|, MaxRecentFiles));
  }

  lemma PrependFreshNoDuplicates(x: string, rest: seq<string>)
    requires NoDuplicates(rest) && x !in rest
    ensures NoDuplicates([x] + rest)
  {
    var s := [x] + rest;
    forall i, j | 0 <= i < j < |s| ensures s[i] != s[j] {
      assert s[j] == rest[j - 1];
      if i > 0 {
        assert s[i] == rest[i - 1];
      }
    }
  }

  lemma PrefixNoDuplicates(s: seq<string>, k: nat)
    requires NoDuplicates(s) && k <= |s|
    ensures NoDuplicates(s[..k])
  {
    forall i, j | 0 <= i < j < k ensures s[..k][i] != s[..k][j] {
      assert s[..k][i] == s[i] && s[..k][j] == s[j];
    }
  }

  // ------------------------------------------------------------------ theme

  datatype Theme = LightTheme | DarkTheme

  /** The `Theme` property: the palette of the selected theme type. */
  function ThemeOf(s: Settings): (t: Theme)
    ensures t.LightTheme? <==> s.themeType.Light?
    ensures t.DarkTheme? <==> s.themeType.Dark?
  {
    match s.themeType
    case Light => LightTheme
    case Dark => DarkTheme
  }

  // ------------------------------------------------------ shortcut names

  /** How the key part of a `Keys` value is written and read back: the
      enumeration's `ToString()` and `Enum.TryParse`, restricted to key parts. */
  datatype KeyNaming = KeyNaming(name: KeyCode -> string, parse: string -> Option<KeyCode>)

  /** The names are read back exactly, contain no `+`, and are not the names
      of modifier flags. */
  ghost predicate ValidNaming(n: KeyNaming) {
    && (forall c :: n.parse(n.name(c)) == Some(c))
    && (forall c :: '+' !in n.name(c))
    && (forall c :: ModifierOfName(n.name(c)).None?)
  }

  function ModifierName(m: Modifier): string {
    match m
    case Application => "Application"
    case Control => "Control"
    case Alt => "Alt"
    case Shift => "Shift"
  }

  /** `Enum.TryParse` on a modifier flag's name. */
  function ModifierOfName(s: string): (r: Option<Modifier>)
    ensures r.Some? ==> ModifierName(r.value) == s
  {
    FindModifier(s, SaveOrder)
  }

  /** The first modifier of `order` named `s`. */
  function FindModifier(s: string, order: seq<Modifier>): (r: Option<Modifier>)
    ensures r.Some? ==> r.value in order && ModifierName(r.value) == s
  {
    if |order| == 0 then None
    else if ModifierName(order[0]) == s then Some(order[0])
    else FindModifier(s, order[1..])
  }

  /** The four names differ, already in length. */
  lemma ModifierNamesDiffer(a: Modifier, b: Modifier)
    requires a != b
    ensures ModifierName(a) != ModifierName(b)
  {
    assert |ModifierName(a)| != |ModifierName(b)|;
  }

  lemma {:induction false} FindNamedModifier(m: Modifier, order: seq<Modifier>)
    requires m in order
    ensures FindModifier(ModifierName(m), order) == Some(m)
    decreases |order|
  {
    if order[0] != m {
      ModifierNamesDiffer(order[0], m);
      FindNamedModifier(m, order[1..]);
    }
  }

  lemma ModifierNameRoundTrip(m: Modifier)
    ensures ModifierOfName(ModifierName(m)) == Some(m)
    ensures '+' !in ModifierName(m)
  {
    InSaveOrder(m);
    FindNamedModifier(m, SaveOrder);
  }

  /** The order in which `Save` lists the modifier flags. */
  const SaveOrder: seq<Modifier> := [Application, Control, Alt, Shift]

  function Rank(m: Modifier): nat {
    match m
    case Application => 0
    case Control => 1
    case Alt => 2
    case Shift => 3
  }

  /** The elements of `order` present in `mods`, in order. */
  function Present(order: seq<Modifier>, mods: set<Modifier>): (r: seq<Modifier>)
    ensures forall m :: m in r <==> m in order && m in mods
  {
    if |order| == 0 then []
    else (if order[0] in mods then [order[0]] else []) + Present(order[1..], mods)
  }

  predicate RankSorted(ms: seq<Modifier>) {
    forall i, j :: 0 <= i < j < |ms| ==> Rank(ms[i]) < Rank(ms[j])
  }

  lemma {:induction false} PresentKeepsRankOrder(order: seq<Modifier>, mods: set<Modifier>)
    requires RankSorted(order)
    ensures RankSorted(Present(order, mods))
    decreases |order|
  {
    if |order| > 0 {
      var rest := Present(order[1..], mods);
      assert RankSorted(order[1..]) by {
        forall i, j | 0 <= i < j < |order[1..]| ensures Rank(order[1..][i]) < Rank(order[1..][j]) {
          assert order[1..][i] == order[i + 1] && order[1..][j] == order[j + 1];
        }
      }
      PresentKeepsRankOrder(order[1..], mods);
      PresentRanksAbove(order[1..], mods, Rank(order[0]));
      if order[0] in mods {
        PrependKeepsRankOrder(order[0], rest);
      }
    }
  }

  /** A lower bound on the ranks of `order` bounds those of `Present`. */
  lemma {:induction false} PresentRanksAbove(order: seq<Modifier>, mods: set<Modifier>, b: int)
    requires forall k :: 0 <= k < |order| ==> b < Rank(order[k])
    ensures forall k :: 0 <= k < |Present(order, mods)| ==> b < Rank(Present(order, mods)[k])
    decreases |order|
  {
    if |order| > 0 {
      assert forall k :: 0 <= k < |order[1..]| ==> order[1..][k] == order[k + 1];
      PresentRanksAbove(order[1..], mods, b);
    }
  }

  lemma PrependKeepsRankOrder(m: Modifier, rest: seq<Modifier>)
    requires RankSorted(rest)
    requires forall k :: 0 <= k < |rest| ==> Rank(m) < Rank(rest[k])
    ensures RankSorted([m] + rest)
  {
    var p := [m] + rest;
    forall i, j | 0 <= i < j < |p| ensures Rank(p[i]) < Rank(p[j]) {
      assert p[j] == rest[j - 1];
      if i > 0 {
        assert p[i] == rest[i - 1];
      }
    }
  }

  lemma InSaveOrder(m: Modifier)
    ensures m in SaveOrder
  {
    assert SaveOrder[Rank(m)] == m;
  }

  function ModifierNames(ms: seq<Modifier>): (r: seq<string>)
    ensures |r| == |ms|
    ensures forall i :: 0 <= i < |ms| ==> r[i] == ModifierName(ms[i])
  {
    seq(|ms|, i requires 0 <= i < |ms| => ModifierName(ms[i]))
  }

  /** The parts of the name `Save` gives a shortcut. */
  function ShortcutParts(k: Keys, n: KeyNaming): seq<string> {
    ModifierNames(Present(SaveOrder, k.mods)) + [n.name(k.code)]
  }

  /** A saved name lists the modifier flags present in the shortcut, each
      once, in the order Application, Control, Alt, Shift, then the key. */
  lemma ShortcutPartsOrder(k: Keys, n: KeyNaming)
    ensures var parts := ShortcutParts(k, n);
      && |parts| >= 1 && parts[|parts| - 1] == n.name(k.code)
      && (forall i :: 0 <= i < |parts| - 1 ==>
            ModifierOfName(parts[i]).Some? && ModifierOfName(parts[i]).value in k.mods)
      && (forall i, j :: 0 <= i < j < |parts| - 1 ==>
            Rank(ModifierOfName(parts[i]).value) < Rank(ModifierOfName(parts[j]).value))
      && (forall m :: m in k.mods ==> ModifierName(m) in parts[..|parts| - 1])
  {
    var ms := Present(SaveOrder, k.mods);
    var names := ModifierNames(ms);
    var parts := ShortcutParts(k, n);
    assert |parts| == |ms| + 1;
    assert parts[..|parts| - 1] == names;
    assert forall i :: 0 <= i < |ms| ==> parts[i] == names[i];
    forall i | 0 <= i < |ms| ensures ModifierOfName(parts[i]) == Some(ms[i]) {
      ModifierNameRoundTrip(ms[i]);
    }
    assert forall i :: 0 <= i < |ms| ==> ms[i] in k.mods;
    PresentKeepsRankOrder(SaveOrder, k.mods);
    forall i, j | 0 <= i < j < |parts| - 1
      ensures Rank(ModifierOfName(parts[i]).value) < Rank(ModifierOfName(parts[j]).value)
    {
      assert ModifierOfName(parts[i]).value == ms[i];
      assert ModifierOfName(parts[j]).value == ms[j];
    }
    forall m | m in k.mods ensures ModifierName(m) in names {
      InSaveOrder(m);
      var i :| 0 <= i < |ms| && ms[i] == m;
      assert names[i] == ModifierName(m);
    }
  }

  /** The name a snippet's shortcut is stored under in the snippets file:
      the parts joined by `+`. */
  function ShortcutName(k: Keys, n: KeyNaming): (name: string)
    ensures ValidNaming(n) ==> Text.Split(name, '+') == ShortcutParts(k, n)
  {
    JoinedPartsSplit(k, n);
    Text.Join(ShortcutParts(k, n), '+')
  }

  /** Under a valid naming no part holds a `+`, so the joined parts split
      back into themselves. */
  lemma JoinedPartsSplit(k: Keys, n: KeyNaming)
    ensures ValidNaming(n) ==> Text.Split(Text.Join(ShortcutParts(k, n), '+'), '+') == ShortcutParts(k, n)
  {
    if ValidNaming(n) {
      ShortcutPartsHaveNoPlus(k, n);
      Text.SplitJoin(ShortcutParts(k, n), '+');
    }
  }

  /** `Enum.TryParse<Keys>(part, out k) ? k : Keys.None` */
  function ParsePart(part: string, n: KeyNaming): Keys {
    match ModifierOfName(part)
    case Some(m) => Keys({m}, 0)
    case None =>
      match n.parse(part)
      case Some(c) => Keys({}, c)
      case None => NoKeys
  }

  /** `parts.Select(ParsePart).Aggregate((a, b) => a | b)` */
  function ParseParts(parts: seq<string>, n: KeyNaming): Keys
    requires |parts| >= 1
    decreases |parts|
  {
    if |parts| == 1 then ParsePart(parts[0], n)
    else Or(ParseParts(parts[..|parts| - 1], n), ParsePart(parts[|parts| - 1], n))
  }

  /** Reads a stored shortcut name back: split on `+` and OR the parts;
      an unknown part counts as `Keys.None`. */
  function ParseShortcut(name: string, n: KeyNaming): Keys {
    ParseParts(Text.Split(name, '+'), n)
  }

  /** The modifiers of a list, collected from the left. */
  function SetOf(ms: seq<Modifier>): (r: set<Modifier>)
    ensures forall m :: m in r <==> m in ms
    decreases |ms|
  {
    if |ms| == 0 then {}
    else
      var front := ms[..|ms| - 1];
      assert ms == front + [ms[|ms| - 1]];
      SetOf(front) + {ms[|ms| - 1]}
  }

  lemma {:induction false} ParseModifierNames(ms: seq<Modifier>, n: KeyNaming)
    requires |ms| >= 1
    ensures ParseParts(ModifierNames(ms), n) == Keys(SetOf(ms), 0)
    decreases |ms|
  {
    var names := ModifierNames(ms);
    var last := ms[|ms| - 1];
    var front := ms[..|ms| - 1];
    assert names[|names| - 1] == ModifierName(last);
    ParseModifierName(last, n);
    assert SetOf(ms) == SetOf(front) + {last};
    if |ms| > 1 {
      assert names[..|names| - 1] == ModifierNames(front);
      ParseModifierNames(front, n);
      OrModifiers(SetOf(front), {last});
    } else {
      assert SetOf(front) == {};
    }
  }

  lemma ParseModifierName(m: Modifier, n: KeyNaming)
    ensures ParsePart(ModifierName(m), n) == Keys({m}, 0)
  {
    ModifierNameRoundTrip(m);
  }

  lemma OrModifiers(a: set<Modifier>, b: set<Modifier>)
    ensures Or(Keys(a, 0), Keys(b, 0)) == Keys(a + b, 0)
  {
    assert (0 as KeyCode) | (0 as KeyCode) == 0;
  }

  lemma ShortcutPartsHaveNoPlus(k: Keys, n: KeyNaming)
    requires ValidNaming(n)
    ensures var parts := ShortcutParts(k, n);
      forall i :: 0 <= i < |parts| ==> '+' !in parts[i]
  {
    var ms := Present(SaveOrder, k.mods);
    var parts := ShortcutParts(k, n);
    forall i | 0 <= i < |parts| ensures '+' !in parts[i] {
      if i < |ms| {
        ModifierNameRoundTrip(ms[i]);
      } else {
        assert parts[i] == n.name(k.code);
      }
    }
  }

  lemma ParseShortcutParts(k: Keys, n: KeyNaming)
    requires ValidNaming(n)
    ensures ParseParts(ShortcutParts(k, n), n) == k
  {
    var ms := Present(SaveOrder, k.mods);
    var key := n.name(k.code);
    assert ParsePart(key, n) == Keys({}, k.code) by {
      assert ModifierOfName(key).None?;
      assert n.parse(key) == Some(k.code);
    }
    assert SetOf(ms) == k.mods by {
      forall m ensures m in ms <==> m in k.mods {
        InSaveOrder(m);
      }
    }
    if |ms| == 0 {
      assert ShortcutParts(k, n) == [key];
    } else {
      ParseModifiersThenKey(ms, key, k.code, n);
    }
  }

  lemma ParseModifiersThenKey(ms: seq<Modifier>, key: string, code: KeyCode, n: KeyNaming)
    requires |ms| >= 1
    requires ParsePart(key, n) == Keys({}, code)
    ensures ParseParts(ModifierNames(ms) + [key], n) == Keys(SetOf(ms), code)
  {
    var parts := ModifierNames(ms) + [key];
    assert parts[..|parts| - 1] == ModifierNames(ms);
    ParseModifierNames(ms, n);
    assert (0 as KeyCode) | code == code;
  }

  /** Reading back the name `Save` writes gives the shortcut back. */
  lemma ShortcutRoundTrip(k: Keys, n: KeyNaming)
    requires ValidNaming(n)
    ensures ParseShortcut(ShortcutName(k, n), n) == k
  {
    ShortcutPartsHaveNoPlus(k, n);
    Text.SplitJoin(ShortcutParts(k, n), '+');
    ParseShortcutParts(k, n);
  }

  /** Distinct shortcuts are stored under distinct names. */
  lemma ShortcutNameInjective(a: Keys, b: Keys, n: KeyNaming)
    requires ValidNaming(n)
    requires ShortcutName(a, n) == ShortcutName(b, n)
    ensures a == b
  {
    ShortcutRoundTrip(a, n);
    ShortcutRoundTrip(b, n);
  }

  // ------------------------------------------------------- snippets file

  /** A snippet as the snippets file stores it. */
  datatype StoredSnippet = StoredSnippet(shortcut: Keys, text: string)

  /** No pair after the `i`-th has the same key. */
  predicate LastWithKey(pairs: seq<(string, string)>, i: nat)
    requires i < |pairs|
  {
    forall j :: i < j < |pairs| ==> pairs[j].0 != pairs[i].0
  }

  /** Assigns `table[key] = value` for each pair in turn. */
  function Assign(pairs: seq<(string, string)>): map<string, string>
    decreases |pairs|
  {
    if |pairs| == 0 then map[]
    else Assign(pairs[..|pairs| - 1])[pairs[|pairs| - 1].0 := pairs[|pairs| - 1].1]
  }

  /** Every assigned key is in the table and holds the value of its last
      assignment; every entry of the table comes from some assignment. */
  lemma {:induction false} AssignContents(pairs: seq<(string, string)>)
    ensures forall i :: 0 <= i < |pairs| ==> pairs[i].0 in Assign(pairs)
    ensures forall i :: 0 <= i < |pairs| && LastWithKey(pairs, i) ==> Assign(pairs)[pairs[i].0] == pairs[i].1
    ensures forall key :: key in Assign(pairs) ==> exists i :: 0 <= i < |pairs| && pairs[i] == (key, Assign(pairs)[key])
    decreases |pairs|
  {
    if |pairs| > 0 {
      var front := pairs[..|pairs| - 1];
      var last := pairs[|pairs| - 1];
      AssignContents(front);
      AssignStep(front, last);
      assert front + [last] == pairs;
    }
  }

  lemma AssignStep(front: seq<(string, string)>, last: (string, string))
    requires forall i :: 0 <= i < |front| ==> front[i].0 in Assign(front)
    requires forall i :: 0 <= i < |front| && LastWithKey(front, i) ==> Assign(front)[front[i].0] == front[i].1
    requires forall key :: key in Assign(front) ==> exists i :: 0 <= i < |front| && front[i] == (key, Assign(front)[key])
    ensures var pairs := front + [last];
      && (forall i :: 0 <= i < |pairs| ==> pairs[i].0 in Assign(pairs))
      && (forall i :: 0 <= i < |pairs| && LastWithKey(pairs, i) ==> Assign(pairs)[pairs[i].0] == pairs[i].1)
      && (forall key :: key in Assign(pairs) ==> exists i :: 0 <= i < |pairs| && pairs[i] == (key, Assign(pairs)[key]))
  {
    var pairs := front + [last];
    assert pairs[..|pairs| - 1] == front;
    var table := Assign(front);
    var r := Assign(pairs);
    assert r == table[last.0 := last.1];
    forall i | 0 <= i < |pairs| ensures pairs[i].0 in r {
      if i < |front| {
        assert pairs[i] == front[i];
      }
    }
    forall i | 0 <= i < |pairs| && LastWithKey(pairs, i) ensures r[pairs[i].0] == pairs[i].1 {
      if i < |front| {
        assert pairs[i] == front[i];
        assert LastWithKey(front, i) by {
          forall j | i < j < |front| ensures front[j].0 != front[i].0 {
            assert pairs[j] == front[j];
          }
        }
        assert pairs[|pairs| - 1].0 != pairs[i].0;
      }
    }
    forall key | key in r ensures exists i :: 0 <= i < |pairs| && pairs[i] == (key, r[key]) {
      if key != last.0 {
        var i :| 0 <= i < |front| && front[i] == (key, table[key]);
        assert pairs[i] == (key, r[key]);
      } else {
        assert pairs[|pairs| - 1] == (key, r[key]);
      }
    }
  }

  /** The (name, text) pairs `Save` writes, in list order. */
  function SnippetPairs(snippets: seq<StoredSnippet>, n: KeyNaming): (pairs: seq<(string, string)>)
    ensures |pairs| == |snippets|
    ensures forall i :: 0 <= i < |snippets| ==>
      pairs[i] == (ShortcutName(snippets[i].shortcut, n), snippets[i].text)
  {
    seq(|snippets|, i requires 0 <= i < |snippets| => (ShortcutName(snippets[i].shortcut, n), snippets[i].text))
  }

  /** No snippet after the `i`-th has the same shortcut. */
  predicate LastWithShortcut(snippets: seq<StoredSnippet>, i: nat)
    requires i < |snippets|
  {
    forall j :: i < j < |snippets| ==> snippets[j].shortcut != snippets[i].shortcut
  }

  /** Snippet `i` is stored under `name` with `text`. */
  predicate SavedAs(snippets: seq<StoredSnippet>, n: KeyNaming, i: int, name: string, text: string) {
    0 <= i < |snippets| && ShortcutName(snippets[i].shortcut, n) == name && snippets[i].text == text
  }

  /** No snippet after the `i`-th is stored under the same name. */
  predicate LastWithName(snippets: seq<StoredSnippet>, n: KeyNaming, i: nat)
    requires i < |snippets|
  {
    forall j :: i < j < |snippets| ==> ShortcutName(snippets[j].shortcut, n) != ShortcutName(snippets[i].shortcut, n)
  }

  /** `Save`: the snippets table, keyed by shortcut name, a later snippet
      with the same name replacing an earlier one. */
  function SaveSnippets(snippets: seq<StoredSnippet>, n: KeyNaming): (table: map<string, string>)
    ensures forall i :: 0 <= i < |snippets| ==> ShortcutName(snippets[i].shortcut, n) in table
    ensures forall i :: 0 <= i < |snippets| && LastWithName(snippets, n, i) ==>
      table[ShortcutName(snippets[i].shortcut, n)] == snippets[i].text
    ensures forall key :: key in table ==> exists i :: SavedAs(snippets, n, i, key, table[key])
  {
    var pairs := SnippetPairs(snippets, n);
    AssignContents(pairs);
    var table := Assign(pairs);
    forall i | 0 <= i < |snippets| && LastWithName(snippets, n, i)
      ensures table[ShortcutName(snippets[i].shortcut, n)] == snippets[i].text
    {
      assert LastWithKey(pairs, i);
    }
    forall key | key in table ensures exists i :: SavedAs(snippets, n, i, key, table[key]) {
      var i :| 0 <= i < |pairs| && pairs[i] == (key, table[key]);
      assert SavedAs(snippets, n, i, key, table[key]);
    }
    table
  }

  /** With names read back exactly, a snippet no later one shadows by
      shortcut is not shadowed by name either. */
  lemma UnshadowedByName(snippets: seq<StoredSnippet>, n: KeyNaming, i: nat)
    requires ValidNaming(n)
    requires i < |snippets| && LastWithShortcut(snippets, i)
    ensures LastWithName(snippets, n, i)
  {
    forall j | i < j < |snippets|
      ensures ShortcutName(snippets[j].shortcut, n) != ShortcutName(snippets[i].shortcut, n)
    {
      if ShortcutName(snippets[j].shortcut, n) == ShortcutName(snippets[i].shortcut, n) {
        ShortcutNameInjective(snippets[j].shortcut, snippets[i].shortcut, n);
      }
    }
  }

  /** Two snippets with the same shortcut collapse to the later one's text. */
  lemma SameShortcutCollapses(snippets: seq<StoredSnippet>, i: nat, j: nat, n: KeyNaming)
    requires i < j < |snippets|
    requires snippets[i].shortcut == snippets[j].shortcut
    requires LastWithShortcut(snippets, j)
    requires ValidNaming(n)
    ensures SaveSnippets(snippets, n)[ShortcutName(snippets[i].shortcut, n)] == snippets[j].text
  {
    UnshadowedByName(snippets, n, j);
  }

  /** A value of the snippets table as read from the file. */
  datatype TomlValue = TomlString(s: string) | TomlOther

  /** The snippet `s` was read from entry `i` of the table. */
  predicate ReadFrom(entries: seq<(string, TomlValue)>, i: int, s: StoredSnippet, n: KeyNaming) {
    0 <= i < |entries| && entries[i].1 == TomlString(s.text) && s.shortcut == ParseShortcut(entries[i].0, n)
  }

  /** The number of string entries among the first `k`. */
  function StringsBefore(entries: seq<(string, TomlValue)>, k: nat): (c: nat)
    requires k <= |entries|
    ensures c <= k
  {
    if k == 0 then 0
    else (if entries[0].1.TomlString? then 1 else 0) + StringsBefore(entries[1..], k - 1)
  }

  /** The snippet read from a string entry. */
  function SnippetOf(entry: (string, TomlValue), n: KeyNaming): StoredSnippet
    requires entry.1.TomlString?
  {
    StoredSnippet(ParseShortcut(entry.0, n), entry.1.s)
  }

  /** The string entries of a table, in order, as snippets; the others are
      skipped. The `i`-th entry, when it is a string, gives the snippet at the
      position counting the string entries before it. */
  function ReadEntries(entries: seq<(string, TomlValue)>, n: KeyNaming): (r: seq<StoredSnippet>)
    ensures |r| == StringsBefore(entries, |entries|)
    ensures forall i :: 0 <= i < |entries| && entries[i].1.TomlString? ==>
      StringsBefore(entries, i) < |r| && r[StringsBefore(entries, i)] == SnippetOf(entries[i], n)
    ensures forall s :: s in r <==> exists i :: ReadFrom(entries, i, s, n)
    decreases |entries|
  {
    if |entries| == 0 then []
    else
      var rest := ReadEntries(entries[1..], n);
      var head := match entries[0].1
        case TomlString(text) => [StoredSnippet(ParseShortcut(entries[0].0, n), text)]
        case TomlOther => [];
      var r := head + rest;
      forall s | s in r ensures exists i :: ReadFrom(entries, i, s, n) {
        if s in head {
          assert ReadFrom(entries, 0, s, n);
        } else {
          var i :| ReadFrom(entries[1..], i, s, n);
          assert entries[i + 1] == entries[1..][i];
          assert ReadFrom(entries, i + 1, s, n);
        }
      }
      forall s, i | ReadFrom(entries, i, s, n) ensures s in r {
        if i == 0 {
          assert s in head;
        } else {
          assert entries[1..][i - 1] == entries[i];
          assert ReadFrom(entries[1..], i - 1, s, n);
        }
      }
      ReadEntriesStep(entries, n, head, rest);
      r
  }

  /** The step of `ReadEntries`: the first entry's snippet, if any, before
      the snippets of the rest. */
  lemma {:induction false} ReadEntriesStep(entries: seq<(string, TomlValue)>, n: KeyNaming, head: seq<StoredSnippet>, rest: seq<StoredSnippet>)
    requires |entries| > 0
    requires head == (if entries[0].1.TomlString? then [SnippetOf(entries[0], n)] else [])
    requires |rest| == StringsBefore(entries[1..], |entries| - 1)
    requires forall i :: 0 <= i < |entries| - 1 && entries[1..][i].1.TomlString? ==>
      StringsBefore(entries[1..], i) < |rest| && rest[StringsBefore(entries[1..], i)] == SnippetOf(entries[1..][i], n)
    ensures |head + rest| == StringsBefore(entries, |entries|)
    ensures forall i :: 0 <= i < |entries| && entries[i].1.TomlString? ==>
      StringsBefore(entries, i) < |head + rest| && (head + rest)[StringsBefore(entries, i)] == SnippetOf(entries[i], n)
  {
    forall i | 0 <= i < |entries| && entries[i].1.TomlString?
      ensures StringsBefore(entries, i) < |head + rest|
      ensures (head + rest)[StringsBefore(entries, i)] == SnippetOf(entries[i], n)
    {
      if i > 0 {
        assert entries[1..][i - 1] == entries[i];
        assert StringsBefore(entries, i) == |head| + StringsBefore(entries[1..], i - 1);
        assert (head + rest)[StringsBefore(entries, i)] == rest[StringsBefore(entries[1..], i - 1)];
      } else {
        assert StringsBefore(entries, i) == 0 && head == [SnippetOf(entries[0], n)];
      }
    }
  }

  /** `Load`: a non-empty snippets table replaces the snippet list by its
      string entries; an empty one keeps the current list. */
  function LoadSnippets(entries: seq<(string, TomlValue)>, current: seq<StoredSnippet>, n: KeyNaming): (r: seq<StoredSnippet>)
    ensures |entries| == 0 ==> r == current
    ensures |entries| > 0 ==> |r| == StringsBefore(entries, |entries|)
    ensures |entries| > 0 ==> forall i :: 0 <= i < |entries| && entries[i].1.TomlString? ==>
      StringsBefore(entries, i) < |r| && r[StringsBefore(entries, i)] == SnippetOf(entries[i], n)
    ensures |entries| > 0 ==> forall s :: s in r <==> exists i :: ReadFrom(entries, i, s, n)
  {
    if |entries| == 0 then current else ReadEntries(entries, n)
  }

  /** `entries` lists the string entries of `table`, each key at least once. */
  predicate Lists(entries: seq<(string, TomlValue)>, table: map<string, string>) {
    && (forall i :: 0 <= i < |entries| ==> entries[i].0 in table && entries[i].1 == TomlString(table[entries[i].0]))
    && (forall key :: key in table ==> exists i :: 0 <= i < |entries| && entries[i].0 == key)
  }

  /** Saving then loading: every loaded snippet was saved, and every saved
      snippet that no later snippet shadows is loaded. */
  lemma SaveThenLoad(snippets: seq<StoredSnippet>, entries: seq<(string, TomlValue)>,
                     current: seq<StoredSnippet>, n: KeyNaming)
    requires ValidNaming(n)
    requires |snippets| > 0
    requires Lists(entries, SaveSnippets(snippets, n))
    ensures forall s :: s in LoadSnippets(entries, current, n) ==> s in snippets
    ensures forall i :: 0 <= i < |snippets| && LastWithShortcut(snippets, i) ==>
      snippets[i] in LoadSnippets(entries, current, n)
  {
    SavedTableNotEmpty(snippets, entries, n);
    forall s | s in LoadSnippets(entries, current, n) ensures s in snippets {
      LoadedWasSaved(snippets, entries, n, s);
    }
    forall i | 0 <= i < |snippets| && LastWithShortcut(snippets, i)
      ensures snippets[i] in LoadSnippets(entries, current, n)
    {
      UnshadowedIsLoaded(snippets, entries, n, i);
    }
  }

  /** Saving an empty list writes an empty table, which `Load` ignores:
      the current list stays, so deleting every snippet does not survive
      a save and a load. */
  lemma EmptySaveKeepsCurrent(entries: seq<(string, TomlValue)>, current: seq<StoredSnippet>, n: KeyNaming)
    requires Lists(entries, SaveSnippets([], n))
    ensures LoadSnippets(entries, current, n) == current
  {
    var table := SaveSnippets([], n);
    assert forall key :: key !in table;
  }

  lemma SavedTableNotEmpty(snippets: seq<StoredSnippet>, entries: seq<(string, TomlValue)>, n: KeyNaming)
    requires |snippets| > 0
    requires Lists(entries, SaveSnippets(snippets, n))
    ensures |entries| > 0
  {
    assert ShortcutName(snippets[0].shortcut, n) in SaveSnippets(snippets, n);
  }

  lemma LoadedWasSaved(snippets: seq<StoredSnippet>, entries: seq<(string, TomlValue)>,
                       n: KeyNaming, s: StoredSnippet)
    requires ValidNaming(n)
    requires Lists(entries, SaveSnippets(snippets, n))
    requires s in ReadEntries(entries, n)
    ensures s in snippets
  {
    var table := SaveSnippets(snippets, n);
    var i :| ReadFrom(entries, i, s, n);
    var name := entries[i].0;
    assert s.text == table[name];
    var k :| SavedAs(snippets, n, k, name, table[name]);
    ShortcutRoundTrip(snippets[k].shortcut, n);
    assert s == snippets[k];
  }

  lemma UnshadowedIsLoaded(snippets: seq<StoredSnippet>, entries: seq<(string, TomlValue)>,
                           n: KeyNaming, i: nat)
    requires ValidNaming(n)
    requires Lists(entries, SaveSnippets(snippets, n))
    requires i < |snippets| && LastWithShortcut(snippets, i)
    ensures snippets[i] in ReadEntries(entries, n)
  {
    var table := SaveSnippets(snippets, n);
    var name := ShortcutName(snippets[i].shortcut, n);
    UnshadowedByName(snippets, n, i);
    assert table[name] == snippets[i].text;
    var e :| 0 <= e < |entries| && entries[e].0 == name;
    ShortcutRoundTrip(snippets[i].shortcut, n);
    assert ReadFrom(entries, e, snippets[i], n);
  }
}

=== FILE: snippet_dialog.dfy ===
/** The Studio's snippet editor. It works on a copy of the configured
    snippets; OK hands the edited copy back to the settings, Cancel drops it. */
module SnippetDialog {
  import opened Keys
  import opened Studio
  import Text

  /** The dialog's working list next to the list it was opened from. */
  datatype Session = Session(original: seq<Snippet>, working: seq<Snippet>)

  function Open(settings: seq<Snippet>): Session {
    Session(settings, settings)
  }

  // ------------------------------------------------------ the edits

  /** One click or edit in the dialog, on the entry at `idx`. `confirmed` is
      the user's answer to the message box the edit may ask. */
  datatype Edit =
    | Add
    | MoveUp(idx: nat)
    | MoveDown(idx: nat)
    | Delete(idx: nat, confirmed: bool)
    | AssignHotkey(idx: nat, e: KeyEvent, confirmed: bool)
    | SetEnabled(idx: nat, value: bool)
    | SetShortcut(idx: nat, text: string)
    | SetInsert(idx: nat, text: string)

  /** The up button is enabled on every entry but the first. */
  predicate UpEnabled(idx: nat) {
    idx != 0
  }

  /** The down button is enabled on every entry but the last. */
  predicate DownEnabled(idx: nat, count: nat) {
    idx != count - 1
  }

  /** The edit can be made: its entry exists and its button is enabled. */
  predicate Clickable(s: seq<Snippet>, edit: Edit) {
    match edit
    case Add => true
    case MoveUp(idx) => idx < |s| && UpEnabled(idx)
    case MoveDown(idx) => idx < |s| && DownEnabled(idx, |s|)
    case Delete(idx, _) => idx < |s|
    case AssignHotkey(idx, _, _) => idx < |s|
    case SetEnabled(idx, _) => idx < |s|
    case SetShortcut(idx, _) => idx < |s|
    case SetInsert(idx, _) => idx < |s|
  }

  /** The entries at `i` and `j` exchanged. */
  function Swap(s: seq<Snippet>, i: nat, j: nat): (r: seq<Snippet>)
    requires i < |s| && j < |s|
    ensures |r| == |s|
    ensures r[i] == s[j] && r[j] == s[i]
    ensures forall k :: 0 <= k < |s| && k != i && k != j ==> r[k] == s[k]
    ensures multiset(r) == multiset(s)
  {
    s[i := s[j]][j := s[i]]
  }

  /** Some snippet of `s` already uses `h`, the entry being edited included. */
  predicate InUse(s: seq<Snippet>, h: Hotkey) {
    exists k :: 0 <= k < |s| && s[k].hotkey == h
  }

  /** A key pressed in the "Press a hotkey..." window of entry `idx`. A
      modifier key alone is ignored; a hotkey some snippet already uses is
      taken only when the user confirms. */
  function PressHotkey(s: seq<Snippet>, idx: nat, e: KeyEvent, confirmed: bool): (r: seq<Snippet>)
    requires idx < |s|
    ensures |r| == |s|
    ensures e.key.ModifierKey? ==> r == s
    ensures e.key.OtherKey? && InUse(s, FromEvent(e)) && !confirmed ==> r == s
    ensures r != s ==> e.key.OtherKey? && r[idx].hotkey == FromEvent(e) && (confirmed || !InUse(s, FromEvent(e)))
    ensures e.key.OtherKey? && (confirmed || !InUse(s, FromEvent(e))) ==> r[idx].hotkey == FromEvent(e)
    ensures forall k :: 0 <= k < |s| && k != idx ==> r[k] == s[k]
    ensures r[idx].(hotkey := s[idx].hotkey) == s[idx]
  {
    if e.key.ModifierKey? then s
    else
      var h := FromEvent(e);
      if InUse(s, h) && !confirmed then s
      else s[idx := s[idx].(hotkey := h)]
  }

  /** The entries of `r` and `s` other than the one at `idx` agree. */
  predicate OthersKept(s: seq<Snippet>, r: seq<Snippet>, idx: nat) {
    |r| == |s| && forall k :: 0 <= k < |s| && k != idx ==> r[k] == s[k]
  }

  /** `List.RemoveAt(idx)`: the entry at `idx` goes, the others keep their
      order. */
  function RemoveAt(s: seq<Snippet>, idx: nat): (r: seq<Snippet>)
    requires idx < |s|
    ensures |r| == |s| - 1
    ensures r[..idx] == s[..idx] && r[idx..] == s[idx + 1..]
    ensures multiset(r) + multiset{s[idx]} == multiset(s)
  {
    assert s == s[..idx] + [s[idx]] + s[idx + 1..];
    s[..idx] + s[idx + 1..]
  }

  /** The entry at `idx` replaced by `entry`. */
  function Replace(s: seq<Snippet>, idx: nat, entry: Snippet): (r: seq<Snippet>)
    requires idx < |s|
    ensures OthersKept(s, r, idx) && r[idx] == entry
  {
    s[idx := entry]
  }

  /** The list after one edit. */
  function Apply(s: seq<Snippet>, edit: Edit): (r: seq<Snippet>)
    requires Clickable(s, edit)
    ensures edit.Add? ==> r == s + [NewSnippet]
    ensures edit.MoveUp? ==> r == Swap(s, edit.idx, edit.idx - 1)
    ensures edit.MoveDown? ==> r == Swap(s, edit.idx, edit.idx + 1)
    ensures edit.MoveUp? || edit.MoveDown? ==> multiset(r) == multiset(s)
    ensures edit.Delete? && !edit.confirmed ==> r == s
    ensures edit.Delete? && edit.confirmed ==>
      && |r| == |s| - 1
      && r[..edit.idx] == s[..edit.idx] && r[edit.idx..] == s[edit.idx + 1..]
      && multiset(r) + multiset{s[edit.idx]} == multiset(s)
    ensures !edit.Add? && !edit.Delete? ==> |r| == |s|
    ensures edit.AssignHotkey? ==> r == PressHotkey(s, edit.idx, edit.e, edit.confirmed)
    ensures edit.SetEnabled? ==>
      OthersKept(s, r, edit.idx) && r[edit.idx] == s[edit.idx].(enabled := edit.value)
    ensures edit.SetShortcut? ==>
      OthersKept(s, r, edit.idx) && r[edit.idx] == s[edit.idx].(shortcut := Text.ReplaceLineEndings(edit.text))
    ensures edit.SetInsert? ==>
      OthersKept(s, r, edit.idx) && r[edit.idx] == s[edit.idx].(insert := Text.ReplaceLineEndings(edit.text))
  {
    match edit
    case Add => s + [NewSnippet]
    case MoveUp(idx) => Swap(s, idx, idx - 1)
    case MoveDown(idx) => Swap(s, idx, idx + 1)
    case Delete(idx, confirmed) => if confirmed then RemoveAt(s, idx) else s
    case AssignHotkey(idx, e, confirmed) => PressHotkey(s, idx, e, confirmed)
    case SetEnabled(idx, value) => Replace(s, idx, s[idx].(enabled := value))
    case SetShortcut(idx, text) => Replace(s, idx, s[idx].(shortcut := Text.ReplaceLineEndings(text)))
    case SetInsert(idx, text) => Replace(s, idx, s[idx].(insert := Text.ReplaceLineEndings(text)))
  }

  /** Every edit of the run can be made when its turn comes. */
  predicate Feasible(s: seq<Snippet>, edits: seq<Edit>)
    decreases |edits|
  {
    |edits| == 0 || (Clickable(s, edits[0]) && Feasible(Apply(s, edits[0]), edits[1..]))
  }

  /** The working list after a run of edits. */
  function ApplyAll(s: seq<Snippet>, edits: seq<Edit>): seq<Snippet>
    requires Feasible(s, edits)
    decreases |edits|
  {
    if |edits| == 0 then s else ApplyAll(Apply(s, edits[0]), edits[1..])
  }

  /** The session after a run of edits: only the working copy changes. */
  function Edited(session: Session, edits: seq<Edit>): (r: Session)
    requires Feasible(session.working, edits)
    ensures r.original == session.original
    ensures r.working == ApplyAll(session.working, edits)
  {
    session.(working := ApplyAll(session.working, edits))
  }

  /** `Show`: the snippets the settings hold once the dialog closes, with OK
      (`ok`) or Cancel. */
  function Close(session: Session, ok: bool): (r: seq<Snippet>)
    ensures ok ==> r == session.working
    ensures !ok ==> r == session.original
  {
    if ok then session.working else session.original
  }

  /** Cancel leaves the settings as they were, whatever was edited. This
      holds by construction: the edits only ever touch the working copy. */
  lemma CancelDiscardsEdits(settings: seq<Snippet>, edits: seq<Edit>)
    requires Feasible(settings, edits)
    ensures Close(Edited(Open(settings), edits), false) == settings
    ensures Close(Edited(Open(settings), edits), true) == ApplyAll(settings, edits)
  {
  }

  // -------------------------------------------------- properties of runs

  /** The up and down buttons undo each other. */
  lemma MoveUpThenDown(s: seq<Snippet>, idx: nat)
    requires Clickable(s, MoveUp(idx))
    ensures Clickable(Apply(s, MoveUp(idx)), MoveDown(idx - 1))
    ensures Apply(Apply(s, MoveUp(idx)), MoveDown(idx - 1)) == s
  {
    var r := Apply(s, MoveUp(idx));
    assert forall k :: 0 <= k < |s| ==> Apply(r, MoveDown(idx - 1))[k] == s[k];
  }

  /** Reordering only: a run of up and down clicks keeps the same snippets. */
  predicate Reorders(edits: seq<Edit>) {
    forall k :: 0 <= k < |edits| ==> edits[k].MoveUp? || edits[k].MoveDown?
  }

  lemma {:induction false} ReorderingKeepsSnippets(s: seq<Snippet>, edits: seq<Edit>)
    requires Feasible(s, edits) && Reorders(edits)
    ensures multiset(ApplyAll(s, edits)) == multiset(s)
    decreases |edits|
  {
    if |edits| > 0 {
      assert edits[0].MoveUp? || edits[0].MoveDown?;
      assert Reorders(edits[1..]) by {
        forall k | 0 <= k < |edits[1..]| ensures edits[1..][k].MoveUp? || edits[1..][k].MoveDown? {
          assert edits[1..][k] == edits[k + 1];
        }
      }
      ReorderingKeepsSnippets(Apply(s, edits[0]), edits[1..]);
    }
  }

  function Adds(edits: seq<Edit>): nat {
    if |edits| == 0 then 0 else (if edits[0].Add? then 1 else 0) + Adds(edits[1..])
  }

  function ConfirmedDeletes(edits: seq<Edit>): nat {
    if |edits| == 0 then 0
    else (if edits[0].Delete? && edits[0].confirmed then 1 else 0) + ConfirmedDeletes(edits[1..])
  }

  /** Each Add adds one entry and each confirmed Delete removes one; nothing
      else changes the count. */
  lemma {:induction false} EntryCount(s: seq<Snippet>, edits: seq<Edit>)
    requires Feasible(s, edits)
    ensures |ApplyAll(s, edits)| + ConfirmedDeletes(edits) == |s| + Adds(edits)
    decreases |edits|
  {
    if |edits| > 0 {
      EntryCount(Apply(s, edits[0]), edits[1..]);
    }
  }

  // ---------------------------------------------------- hotkey clashes

  /** Two entries share a hotkey other than `Hotkey.None`. */
  predicate Clash(s: seq<Snippet>) {
    exists i, j :: 0 <= i < |s| && 0 <= j < |s| && i != j && s[i].hotkey == s[j].hotkey && s[i].hotkey != NoHotkey
  }

  /** An edit that does not knowingly create a clash: hotkeys are assigned
      without overriding the conflict warning. */
  predicate Cautious(edit: Edit) {
    match edit
    case Add => true
    case AssignHotkey(_, _, confirmed) => !confirmed
    case _ => true
  }

  /** The entries of `r` are those of `s` under an injective renumbering. */
  predicate Renumbered(s: seq<Snippet>, r: seq<Snippet>, f: nat -> nat) {
    && (forall k :: 0 <= k < |r| ==> f(k) < |s| && r[k] == s[f(k)])
    && (forall i, j :: 0 <= i < |r| && 0 <= j < |r| && i != j ==> f(i) != f(j))
  }

  lemma RenumberedNoClash(s: seq<Snippet>, r: seq<Snippet>, f: nat -> nat)
    requires !Clash(s) && Renumbered(s, r, f)
    ensures !Clash(r)
  {
    forall i, j | 0 <= i < |r| && 0 <= j < |r| && i != j && r[i].hotkey != NoHotkey
      ensures r[i].hotkey != r[j].hotkey
    {
      assert r[i] == s[f(i)] && r[j] == s[f(j)] && f(i) != f(j);
    }
  }

  /** The entries of `r` are those of `s` apart from the hotkey of the entry
      at `idx`, which some other entry does not use. */
  lemma FreshHotkeyNoClash(s: seq<Snippet>, r: seq<Snippet>, idx: nat)
    requires !Clash(s) && |r| == |s| && idx < |s|
    requires forall k :: 0 <= k < |s| && k != idx ==> r[k].hotkey == s[k].hotkey
    requires r[idx].hotkey == NoHotkey || forall k :: 0 <= k < |s| && k != idx ==> s[k].hotkey != r[idx].hotkey
    ensures !Clash(r)
  {
    forall i, j | 0 <= i < |r| && 0 <= j < |r| && i != j && r[i].hotkey != NoHotkey
      ensures r[i].hotkey != r[j].hotkey
    {
      if i != idx && j != idx {
        assert r[i].hotkey == s[i].hotkey && r[j].hotkey == s[j].hotkey;
      }
    }
  }

  /** Without a confirmed override no edit creates a clash. */
  lemma CautiousEditNoClash(s: seq<Snippet>, edit: Edit)
    requires Clickable(s, edit) && Cautious(edit) && !Clash(s)
    ensures !Clash(Apply(s, edit))
  {
    match edit
    case Add => AddNoClash(s, NewSnippet);
    case MoveUp(idx) => SwapNoClash(s, idx, idx - 1);
    case MoveDown(idx) => SwapNoClash(s, idx, idx + 1);
    case Delete(idx, confirmed) => if confirmed { DeleteNoClash(s, idx); }
    case AssignHotkey(idx, _, _) => FreshHotkeyNoClash(s, Apply(s, edit), idx);
    case SetEnabled(idx, _) => FreshHotkeyNoClash(s, Apply(s, edit), idx);
    case SetShortcut(idx, _) => FreshHotkeyNoClash(s, Apply(s, edit), idx);
    case SetInsert(idx, _) => FreshHotkeyNoClash(s, Apply(s, edit), idx);
  }

  lemma AddNoClash(s: seq<Snippet>, entry: Snippet)
    requires !Clash(s) && entry.hotkey == NoHotkey
    ensures !Clash(s + [entry])
  {
    var r := s + [entry];
    forall i, j | 0 <= i < |r| && 0 <= j < |r| && i != j && r[i].hotkey != NoHotkey
      ensures r[i].hotkey != r[j].hotkey
    {
      if j < |s| {
        assert r[i] == s[i] && r[j] == s[j];
      }
    }
  }

  lemma SwapNoClash(s: seq<Snippet>, a: nat, b: nat)
    requires !Clash(s) && a < |s| && b < |s|
    ensures !Clash(Swap(s, a, b))
  {
    var f := k => if k == a then b else if k == b then a else k;
    assert Renumbered(s, Swap(s, a, b), f);
    RenumberedNoClash(s, Swap(s, a, b), f);
  }

  lemma DeleteNoClash(s: seq<Snippet>, idx: nat)
    requires !Clash(s) && idx < |s|
    ensures !Clash(s[..idx] + s[idx + 1..])
  {
    var r := s[..idx] + s[idx + 1..];
    var f := k => if k >= idx then k + 1 else k;
    assert Renumbered(s, r, f);
    RenumberedNoClash(s, r, f);
  }

  /** A session whose hotkey warnings were all heeded hands back a list
      without clashes when the list it started from had none. */
  lemma {:induction false} CautiousSessionNoClash(s: seq<Snippet>, edits: seq<Edit>)
    requires Feasible(s, edits) && !Clash(s)
    requires forall k :: 0 <= k < |edits| ==> Cautious(edits[k])
    ensures !Clash(ApplyAll(s, edits))
    decreases |edits|
  {
    if |edits| > 0 {
      CautiousEditNoClash(s, edits[0]);
      assert forall k :: 0 <= k < |edits[1..]| ==> edits[1..][k] == edits[k + 1];
      CautiousSessionNoClash(Apply(s, edits[0]), edits[1..]);
    }
  }
}

=== FILE: text.dfy ===
/** String helpers with the semantics of the .NET routines the modelled code
    calls: `String.Split(char)`, `String.Join`, `String.Replace`,
    `String.ReplaceLineEndings`, `String.IsNullOrWhiteSpace` and
    `Int32.ToString()`. Characters are Unicode scalar values; `String.Length`,
    which counts UTF-16 code units, is `Utf16Length`. */
module Text {

  /** Index of the first occurrence of `c` in `s`. */
  function FirstIndex(s: string, c: char): (i: nat)
    requires c in s
    ensures i < |s| && s[i] == c
    ensures c !in s[..i]
  {
    if s[0] == c then 0
    else
      var j := FirstIndex(s[1..], c);
      assert s[..j + 1] == [s[0]] + s[1..][..j];
      j + 1
  }

  /** `s.Split(sep)`: the maximal `sep`-free pieces of `s`, empty pieces kept,
      so there is always at least one piece. */
  function Split(s: string, sep: char): (parts: seq<string>)
    ensures |parts| >= 1
    ensures forall k :: 0 <= k < |parts| ==> sep !in parts[k]
    ensures |parts| > 1 <==> sep in s
    decreases |s|
  {
    if sep !in s then [s]
    else
      var i := FirstIndex(s, sep);
      [s[..i]] + Split(s[i + 1..], sep)
  }

  /** `String.Join(sep, parts)` */
  function Join(parts: seq<string>, sep: char): (s: string)
    requires |parts| >= 1
    decreases |parts|
  {
    if |parts| == 1 then parts[0] else parts[0] + [sep] + Join(parts[1..], sep)
  }

  /** Joining the pieces of a split gives the string back. */
  lemma {:induction false} JoinSplit(s: string, sep: char)
    ensures Join(Split(s, sep), sep) == s
    decreases |s|
  {
    if sep in s {
      var i := FirstIndex(s, sep);
      JoinSplit(s[i + 1..], sep);
      assert s == s[..i] + [sep] + s[i + 1..];
    }
  }

  /** Splitting a join of `sep`-free pieces gives the pieces back. */
  lemma {:induction false} SplitJoin(parts: seq<string>, sep: char)
    requires |parts| >= 1
    requires forall k :: 0 <= k < |parts| ==> sep !in parts[k]
    ensures Split(Join(parts, sep), sep) == parts
    decreases |parts|
  {
    if |parts| > 1 {
      var s := Join(parts, sep);
      var p := parts[0];
      assert s == p + [sep] + Join(parts[1..], sep);
      assert s[|p|] == sep;
      assert sep in s;
      var i := FirstIndex(s, sep);
      assert s[..|p|] == p;
      assert i >= |p| by {
        forall j | 0 <= j < |p| ensures s[j] != sep {
          assert s[j] == p[j];
        }
      }
      assert i <= |p| by {
        assert s[..i + 1][|p|] == sep;
      }
      assert s[..i] == p;
      assert s[i + 1..] == Join(parts[1..], sep);
      SplitJoin(parts[1..], sep);
    }
  }

  /** The first piece of a split is the longest `sep`-free prefix. */
  lemma FirstPiece(s: string, sep: char)
    ensures var p := Split(s, sep)[0];
      && p <= s
      && sep !in p
      && (|p| < |s| ==> s[|p|] == sep)
  {
    if sep in s {
      var i := FirstIndex(s, sep);
      assert Split(s, sep)[0] == s[..i];
    }
  }

  /** A character that UTF-16 encodes in one code unit. */
  predicate InBasicPlane(c: char) {
    c as int < 0x1_0000
  }

  /** `s.Length` in .NET: the number of UTF-16 code units, two for each
      character outside the Basic Multilingual Plane. */
  function Utf16Length(s: string): (n: nat)
    ensures |s| <= n <= 2 * |s|
    ensures n == 1 <==> |s| == 1 && InBasicPlane(s[0])
  {
    if |s| == 0 then 0 else (if InBasicPlane(s[0]) then 1 else 2) + Utf16Length(s[1..])
  }

  /** `s.Replace(from, to)` for single characters. */
  function ReplaceChar(s: string, from: char, to: char): (r: string)
    ensures |r| == |s|
    ensures forall i :: 0 <= i < |s| ==> r[i] == (if s[i] == from then to else s[i])
    ensures from != to ==> from !in r
  {
    if |s| == 0 then ""
    else [if s[0] == from then to else s[0]] + ReplaceChar(s[1..], from, to)
  }

  /** The newline sequences `ReplaceLineEndings` recognises besides CR LF:
      CR, LF, NEL, FF, LS and PS. */
  predicate IsLineBreak(c: char) {
    c == '\r' || c == '\n' || c == '\U{0085}' || c == '\U{000C}' || c == '\U{2028}' || c == '\U{2029}'
  }

  predicate HasLineBreak(s: string) {
    exists i :: 0 <= i < |s| && IsLineBreak(s[i])
  }

  /** The line separator of the editor's document model. */
  const NewLine: char := '\n'

  /** The characters of `s` that are not line breaks, in order. */
  function DropBreaks(s: string): (r: string)
    ensures |r| <= |s|
    ensures forall i :: 0 <= i < |r| ==> !IsLineBreak(r[i])
    ensures !HasLineBreak(s) ==> r == s
    decreases |s|
  {
    if |s| == 0 then ""
    else
      LineBreakInTailIfNone(s);
      (if IsLineBreak(s[0]) then "" else [s[0]]) + DropBreaks(s[1..])
  }

  /** A text without a line break has none in its tail. */
  lemma LineBreakInTailIfNone(s: string)
    requires |s| > 0
    ensures !HasLineBreak(s) ==> !HasLineBreak(s[1..]) && !IsLineBreak(s[0])
  {
    if HasLineBreak(s[1..]) {
      var i :| 0 <= i < |s[1..]| && IsLineBreak(s[1..][i]);
      assert s[i + 1] == s[1..][i];
    }
  }

  /** `s.ReplaceLineEndings("\n")`: every newline sequence, CR LF counted
      as one, becomes a single `NewLine`; all other characters are kept in
      order, and a text without newline sequences is returned as it is. */
  function ReplaceLineEndings(s: string): (r: string)
    ensures forall i :: 0 <= i < |r| ==> IsLineBreak(r[i]) ==> r[i] == NewLine
    ensures NewLine in r <==> HasLineBreak(s)
    ensures DropBreaks(r) == DropBreaks(s)
    ensures !HasLineBreak(s) ==> r == s
  {
    NormalizedContract(s);
    Normalized(s)
  }

  /** The length of the first newline sequence or character of `s`. */
  function HeadLength(s: string): nat
    requires |s| > 0
  {
    if s[0] == '\r' && |s| > 1 && s[1] == '\n' then 2 else 1
  }

  /** The rewrite behind `ReplaceLineEndings`, one newline sequence or
      character at a time from the front. */
  function Normalized(s: string): string
    decreases |s|
  {
    if |s| == 0 then ""
    else
      var n := HeadLength(s);
      [if IsLineBreak(s[0]) then NewLine else s[0]] + Normalized(s[n..])
  }

  /** What `Normalized` guarantees, by induction over the newline sequences. */
  lemma {:induction false} NormalizedContract(s: string)
    ensures var r := Normalized(s);
      && (forall i :: 0 <= i < |r| ==> IsLineBreak(r[i]) ==> r[i] == NewLine)
      && (NewLine in r <==> HasLineBreak(s))
      && DropBreaks(r) == DropBreaks(s)
      && (!HasLineBreak(s) ==> r == s)
    decreases |s|
  {
    if |s| > 0 {
      var n := HeadLength(s);
      NormalizedContract(s[n..]);
      ReplaceStep(s, n, if IsLineBreak(s[0]) then NewLine else s[0], Normalized(s[n..]));
    }
  }

  /** One step of `ReplaceLineEndings`: the first newline sequence (or
      character) of `s` is `s[..n]`, and `c` replaces it. */
  lemma ReplaceStep(s: string, n: nat, c: char, rest: string)
    requires |s| > 0 && n == (if s[0] == '\r' && |s| > 1 && s[1] == '\n' then 2 else 1)
    requires c == if IsLineBreak(s[0]) then NewLine else s[0]
    requires forall i :: 0 <= i < |rest| ==> IsLineBreak(rest[i]) ==> rest[i] == NewLine
    requires NewLine in rest <==> HasLineBreak(s[n..])
    requires DropBreaks(rest) == DropBreaks(s[n..])
    requires !HasLineBreak(s[n..]) ==> rest == s[n..]
    ensures var r := [c] + rest;
      && (forall i :: 0 <= i < |r| ==> IsLineBreak(r[i]) ==> r[i] == NewLine)
      && (NewLine in r <==> HasLineBreak(s))
      && DropBreaks(r) == DropBreaks(s)
      && (!HasLineBreak(s) ==> r == s)
  {
    var r := [c] + rest;
    assert r[1..] == rest;
    HeadLineBreak(s, n);
    DropBreaksHead(s, n);
    if !HasLineBreak(s) {
      assert s == [s[0]] + s[1..];
    }
  }

  /** `s` has a line break exactly when its head is one or its part after
      the first `n` characters has one. */
  lemma HeadLineBreak(s: string, n: nat)
    requires |s| > 0 && n == (if s[0] == '\r' && |s| > 1 && s[1] == '\n' then 2 else 1)
    ensures HasLineBreak(s) <==> IsLineBreak(s[0]) || HasLineBreak(s[n..])
  {
    if HasLineBreak(s[n..]) {
      var i :| 0 <= i < |s[n..]| && IsLineBreak(s[n..][i]);
      assert IsLineBreak(s[n + i]);
    }
    if HasLineBreak(s) && !IsLineBreak(s[0]) {
      var i :| 0 <= i < |s| && IsLineBreak(s[i]);
      assert s[n..][i - 1] == s[i];
    }
  }

  /** Dropping the breaks of `s` keeps its head unless it is a break; a CR LF
      head drops both characters. */
  lemma DropBreaksHead(s: string, n: nat)
    requires |s| > 0 && n == (if s[0] == '\r' && |s| > 1 && s[1] == '\n' then 2 else 1)
    ensures DropBreaks(s) == (if IsLineBreak(s[0]) then "" else [s[0]]) + DropBreaks(s[n..])
  {
    if n == 2 {
      assert s[1..][1..] == s[2..];
      assert DropBreaks(s[1..]) == DropBreaks(s[2..]);
    }
  }

  /** Normalising a single newline sequence gives one `NewLine`, and any
      other character is kept. */
  lemma ReplaceLineEndingsUnits(c: char)
    ensures ReplaceLineEndings([c]) == [if IsLineBreak(c) then NewLine else c]
    ensures ReplaceLineEndings("\r\n") == [NewLine]
  {
    assert HeadLength([c]) == 1 && [c][1..] == "";
    assert Normalized([c]) == [if IsLineBreak(c) then NewLine else c] + Normalized("");
    assert HeadLength("\r\n") == 2 && "\r\n"[2..] == "";
  }

  /** Normalisation works piece by piece: it distributes over `a + b` as long
      as a CR at the end of `a` cannot pair with an LF at the start of `b`.
      With `ReplaceLineEndingsUnits` this fixes every break in place. */
  lemma ReplaceLineEndingsAppend(a: string, b: string)
    requires |a| == 0 || a[|a| - 1] != '\r'
    ensures ReplaceLineEndings(a + b) == ReplaceLineEndings(a) + ReplaceLineEndings(b)
  {
    NormalizedAppend(a, b);
  }

  lemma {:induction false} NormalizedAppend(a: string, b: string)
    requires |a| == 0 || a[|a| - 1] != '\r'
    ensures Normalized(a + b) == Normalized(a) + Normalized(b)
    decreases |a|
  {
    if |a| == 0 {
      assert a + b == b;
    } else {
      var n := HeadLength(a);
      HeadLengthAppend(a, b);
      NormalizedAppend(a[n..], b);
    }
  }

  /** Appending to a text that does not end in CR leaves its first newline
      sequence or character as it is. */
  lemma HeadLengthAppend(a: string, b: string)
    requires |a| > 0 && a[|a| - 1] != '\r'
    ensures HeadLength(a + b) == HeadLength(a) <= |a|
    ensures (a + b)[0] == a[0]
    ensures (a + b)[HeadLength(a)..] == a[HeadLength(a)..] + b
  {
    var s := a + b;
    assert s[0] == a[0];
    if a[0] == '\r' {
      assert |a| > 1;
      assert s[1] == a[1];
    }
  }

  /** The text before the first newline sequence of `s`. */
  function FirstLine(s: string): (r: string)
    ensures r <= s
    ensures forall i :: 0 <= i < |r| ==> !IsLineBreak(r[i])
    ensures |r| < |s| ==> IsLineBreak(s[|r|])
  {
    if |s| == 0 || IsLineBreak(s[0]) then "" else [s[0]] + FirstLine(s[1..])
  }

  /** Splitting `c + t` for a non-separator `c` only extends the first piece. */
  lemma SplitCons(c: char, t: string, sep: char)
    requires c != sep
    ensures Split([c] + t, sep)[0] == [c] + Split(t, sep)[0]
    ensures |Split([c] + t, sep)| == |Split(t, sep)|
  {
    var s := [c] + t;
    assert s[1..] == t;
    if sep in t {
      var i := FirstIndex(t, sep);
      assert FirstIndex(s, sep) == i + 1;
      assert s[..i + 1] == [c] + t[..i];
      assert s[i + 2..] == t[i + 1..];
    }
  }

  /** After normalising the line endings, the first `NewLine`-separated piece
      is the first line of the original text, and there is more than one piece
      exactly when the original text has a newline sequence. */
  lemma {:induction false} LinesOfNormalized(s: string)
    ensures Split(ReplaceLineEndings(s), NewLine)[0] == FirstLine(s)
    ensures |Split(ReplaceLineEndings(s), NewLine)| > 1 <==> HasLineBreak(s)
    decreases |s|
  {
    var r := ReplaceLineEndings(s);
    if |s| > 0 && !IsLineBreak(s[0]) {
      var rest := ReplaceLineEndings(s[1..]);
      assert r == [s[0]] + rest;
      LinesOfNormalized(s[1..]);
      SplitCons(s[0], rest, NewLine);
      LineBreakInTail(s);
    } else if |s| > 0 {
      assert r[0] == NewLine;
      assert FirstIndex(r, NewLine) == 0;
      assert IsLineBreak(s[0]);
    }
  }

  /** A text that does not start with a newline has one exactly when its
      tail has one. */
  lemma LineBreakInTail(s: string)
    requires |s| > 0 && !IsLineBreak(s[0])
    ensures HasLineBreak(s) <==> HasLineBreak(s[1..])
  {
    if HasLineBreak(s) {
      var i :| 0 <= i < |s| && IsLineBreak(s[i]);
      assert s[1..][i - 1] == s[i];
    }
    if HasLineBreak(s[1..]) {
      var i :| 0 <= i < |s[1..]| && IsLineBreak(s[1..][i]);
      assert s[i + 1] == s[1..][i];
    }
  }

  /** `Char.IsWhiteSpace`: the Unicode white-space characters. */
  predicate IsWhiteSpace(c: char) {
    ('\U{0009}' <= c <= '\U{000D}') || c == ' ' || c == '\U{0085}' || c == '\U{00A0}' || c == '\U{1680}'
    || ('\U{2000}' <= c <= '\U{200A}') || c == '\U{2028}' || c == '\U{2029}' || c == '\U{202F}'
    || c == '\U{205F}' || c == '\U{3000}'
  }

  /** `String.IsNullOrWhiteSpace` on a non-null string. */
  predicate IsBlank(s: string) {
    forall i :: 0 <= i < |s| ==> IsWhiteSpace(s[i])
  }

  predicate IsDigit(c: char) {
    '0' as int <= c as int <= '9' as int
  }

  function DigitChar(d: nat): (c: char)
    requires d < 10
    ensures IsDigit(c) && (c as int) - ('0' as int) == d
  {
    (('0' as int) + d) as char
  }

  function NatToString(n: nat): (r: string)
    ensures |r| >= 1
    ensures forall i :: 0 <= i < |r| ==> IsDigit(r[i])
    decreases n
  {
    if n < 10 then [DigitChar(n)] else NatToString(n / 10) + [DigitChar(n % 10)]
  }

  /** `Int32.ToString()` under the invariant culture: an optional minus sign
      followed by the decimal digits. */
  function IntToString(n: int): (r: string)
    ensures |r| >= 1
    ensures n < 0 <==> r[0] == '-'
  {
    if n < 0 then "-" + NatToString(-n) else NatToString(n)
  }

  /** Reads a non-empty run of decimal digits. */
  function ParseNat(s: string): nat
    requires |s| >= 1
    requires forall i :: 0 <= i < |s| ==> IsDigit(s[i])
  {
    assert IsDigit(s[|s| - 1]);
    var d := (s[|s| - 1] as int) - ('0' as int);
    if |s| == 1 then d else ParseNat(s[..|s| - 1]) * 10 + d
  }

  function ParseInt(s: string): int
    requires |s| >= 1
    requires s[0] == '-' ==> |s| >= 2
    requires forall i :: 0 < i < |s| ==> IsDigit(s[i])
    requires s[0] != '-' ==> IsDigit(s[0])
  {
    if s[0] == '-' then 0 - ParseNat(s[1..]) else ParseNat(s)
  }

  lemma {:induction false} NatToStringRoundTrip(n: nat)
    ensures ParseNat(NatToString(n)) == n
    decreases n
  {
    if n >= 10 {
      var s := NatToString(n);
      NatToStringRoundTrip(n / 10);
      assert s[..|s| - 1] == NatToString(n / 10);
    }
  }

  /** The default slider label can be read back: `IntToString` loses nothing. */
  lemma IntToStringRoundTrip(n: int)
    ensures var s := IntToString(n);
      && (s[0] == '-' ==> |s| >= 2)
      && (forall i :: 0 < i < |s| ==> IsDigit(s[i]))
      && (s[0] != '-' ==> IsDigit(s[0]))
      && ParseInt(s) == n
  {
    var s := IntToString(n);
    if n < 0 {
      NatToStringRoundTrip(-n);
      assert s[1..] == NatToString(-n);
    } else {
      NatToStringRoundTrip(n);
    }
  }

  /** Distinct values get distinct default labels. */
  lemma IntToStringInjective(a: int, b: int)
    requires a != b
    ensures IntToString(a) != IntToString(b)
  {
    IntToStringRoundTrip(a);
    IntToStringRoundTrip(b);
  }
}
